=== FILE: README.md ===
# Sub Hunter simulation core, in Dafny

Sub Hunter is a small top-down submarine game. The player steers a
submarine, pings sonar to reveal enemy submarines and fires torpedoes. Any
two explosive objects that come within 20 units of each other detonate.
This project models the game's simulation rules, without the `arcade`
window, sprites or sounds, and proves properties of them.

Modules follow the source classes:

- `Geometry` (utilities.py): points, and `calculate_distance` as a relation on squared distances.
- `Entities` (entities.py): the data model. `Body` holds the state every `Entity` has. `Kind` holds what `Player`, `Enemy`, `Torpedo` and `Explosion` add. A `World` is the shared entity list plus the next unused object identity.
- `Collection`: list identity (`list.remove`, `is`) on those identities, and the world invariant `WF`. The invariant says: the player is listed first and only there, every object is listed once, and the sonar phase stays in 0..58 with at most ten trails.
- `Base` (Entity): the drag step and the proximity detonation scan with `explode`.
- `Submarine` (Sub): heading wrap-around, torpedo cooldown and `fire_torpedo`.
- `Enemies` (Enemy): steering with snap-to-target, patrol replanning, and the sonar reveal of `Enemy.draw`.
- `Players` (Player): trails, the ping counter and the game-over branch.
- `Transients` (Torpedo, Explosion): fuse arming and expiry.
- `Game` (the `MyGame` window of game.py): the tick loop, the key handlers, the speed labels, the sonar screen mapping and the HUD torpedo line.

An update mutates `self` while `self` is also in the list. The model
therefore passes the updating object separately from the list, as a
`Frame`. The list entry is written back when the update returns, which is
the point where Python's in-place changes become visible to the next
entity. A tick walks the list by index, exactly like Python's list
iterator. Objects appended during a tick are therefore updated in the
same tick, and a removal at or before the cursor skips the next object.

Trigonometry and randomness come from outside through an `Env`:

- `bearing(h)` is (sin h, cos h) for a heading in degrees;
- `aim(p, t)` is 180 + atan2 in degrees;
- `replan(id)` gives the three `randint` draws an enemy uses if it picks a new waypoint in this tick.

`EnvOk` states only the ranges the source relies on: `aim` lies in
[0, 360] and every draw lies in its `randint` range. The reveal's jitter
draws are parameters of `Reveal`.

Where the code and the intended design disagree, the model follows the
code:

- Headings can leave 1..360. The wrap test is "below 1", not "at most 0", so a fractional heading of 0.5 with no turn becomes 360.5 (`Submarine.TurnLeavesCompass`). The range 1..360 is kept for whole-degree headings. For real headings the proved invariant is the band (0, 361).
- An enemy whose target heading t lies below 1 can fail to settle. Each update moves its heading by 5, and the wrap adds 355, so the heading's remainder modulo 5 never changes. Coming down towards t, the enemy reaches a heading in [t + 5, t + 10). If that heading is below 6, the next turn goes below 1 and wraps to the top of the compass instead of landing within 5 of t. This happens exactly when (heading − t) modulo 5 lies in [0, 1 − t). `Enemies.SteerCirclesBelowOne` shows one such family, for t = 0.5 and headings 5.5 + 5n. Other headings do settle: `Enemies.SteerSettlesBelowOne` shows heading 10 reaching 5 and then snapping on.
- `Explosion` objects are explosive, because of `Entity`'s default `is_explosive=True`. An explosion therefore detonates anything explosive that comes within 20 units.
- A torpedo or explosion that detonates during the update in which it also expires is removed twice. The second `entities.remove(self)` is not guarded, so the ValueError ends the tick. The model returns `Failure(NotListed(id))`.
- The HUD shows "Torpedo Ready" whenever the cooldown is at most 0. `fire_torpedo` fires only when the cooldown is exactly 0. So after an overshoot below 0, ENTER does nothing for one tick while the HUD says ready.
- The game-over branch marks every object pinged. The player is first in the list, so in the same pass each later object then has its flag cleared just before its own update whenever `ping_time <= 1` (`Game.Advance`). What decides the outcome is the `ping_time` the player holds once it has exploded, not the value it had before. When the player blows up inside its own alive update, that update still steps `ping_time` with the sonar counter after the detonation (`Players.ExplodingUpdateStepsPing`), so 1 becomes 2 and 58 becomes 0. The exploded branch never steps `ping_time` again (`Players.PlayerUpdate`). So if the player is left with `ping_time` at 2 or more, the flags stay set for good, unless SPACE sets `ping_time` back to 1. If it is left at 0 or 1, each pass's reveal is cleared within that same pass.
- UP and DOWN clamp only at the ends of the dial. A speed off the dial, which drag produces, goes past it: 29.7 becomes 39.7.

The game window of game.py uses its own older copies of the entity
classes. The model takes the entity rules from entities.py. It takes from
game.py only the loop, the keys, the speed labels (keyed on speed there,
on thrust in entities.py; both are modelled and related) and the screen
mapping. The reveal test is in both files; the model follows
entities.py's version, which converts the speed with `int()` for the
jitter range.

## Model

| member | source | states |
|---|---|---|
| Geometry.DistSq | utilities.py:4-7 | the squared distance is never negative, and it is zero exactly for equal points |
| Geometry.WithinIsDistanceBelow | utilities.py:7 | for r >= 0, distance < r holds iff the squared distance is below r squared, and <= likewise, so threshold tests need no square root |
| Geometry.DistanceSymmetric | utilities.py:4-7 | calculate_distance(a, b) is a distance from b to a as well |
| Geometry.DistanceZero | utilities.py:4-7 | the distance between two points is 0 iff they are the same point |
| Geometry.DistanceUnique | utilities.py:7 | a pair of points has only one non-negative distance |
| Collection.Remove | entities.py:53 | list.remove drops exactly the first entry with the identity and shifts the rest down, and leaves a list without the identity unchanged |
| Collection.RemoveKeepsOthers | entities.py:53 | removing one object does not add or drop any other identity |
| Base.Drift | entities.py:29-35 | speed approaches the terminal speed 10*thrust by a factor of 0.99 per step; with no thrust it decays towards 0 without changing sign; only speed and position change |
| Base.FirstPartner | entities.py:37-42 | the result is the first index in list order that passes the guard (another object, both explosive, neither exploded, closer than 20), or none passes |
| Base.Explode | entities.py:50-53 | explode stops and marks the object and the list becomes exactly the old list without that object; a missing object leaves the list as it was (the swallowed ValueError); a player is kept listed and restarts its explosion clock |
| Base.ExplodeTwice | entities.py:44-47 | exploding an already removed object a second time leaves the list unchanged |
| Base.Detonate | entities.py:44-48 | a detonation appends exactly one explosion (`NewExplosion`, the constructor of entities.py:267-270: still, heading 360, explosive, age 0) at the scanner's position with a fresh identity and leaves the scanner blasted; before that explosion the list is the old list with the partner removed (or, for the player, replaced by the blasted player) and then the scanner removed unless it is the player |
| Base.DetonateKeepsOthers | entities.py:44-48 | every identity other than the two parties and the new explosion is listed after a detonation exactly when it was listed before |
| Base.DetonateDrops | entities.py:44-47 | after both explode calls neither party is listed unless it is the player, and a player partner in front is the blasted player |
| Base.Scan | entities.py:37-49 | when no object qualifies, the scan changes nothing; otherwise the scanner is blasted, one explosion is appended, and the result is the detonation with the first qualifying object in list order |
| Base.ScanFromIsScan | entities.py:37-49 | the literal loop of entities.py:37-49 (`ScanFrom`, which keeps scanning after a detonation) gives the same result as one detonation with the first partner |
| Base.ScanFromExploded | entities.py:40 | once the scanner has exploded, the rest of the loop changes nothing |
| Base.EntityUpdate | entities.py:29-49 | Entity.update keeps identity, heading, explosiveness and pinged, and the object ends either drifted or blasted |
| Base.EntityUpdateDetonates | entities.py:29-49 | after the drag step, the list is unchanged when no listed object passes the guard against the drifted entity; otherwise the entity is blasted and the result is the detonation with the first object that passes it |
| Base.EntityUpdateSettles | entities.py:29-53 | Entity.update keeps the world invariant, the player first, and does not lengthen the list when the object is listed |
| Submarine.Turn | entities.py:63-68 | the new heading is heading plus change, less 360 when that sum exceeds 360, plus 360 when it is below 1, and unshifted otherwise |
| Submarine.TurnKeepsWholeCompass | entities.py:63-68 | a whole-degree heading in 1..360 turned by at most 5 stays in 1..360, and is shifted by 360 exactly when the sum leaves that range |
| Submarine.TurnKeepsBand | entities.py:63-68 | a real heading in (0, 361) turned by at most 5 stays in (0, 361) |
| Submarine.TurnLeavesCompass | entities.py:65-66 | heading 0.5 with no turn becomes 360.5, outside 1..360 |
| Submarine.Cool | entities.py:71-74 | a positive cooldown decreases by the time step, and a negative or zero one becomes 0 |
| Submarine.CoolKeepsBand | entities.py:71-74 | with steps of at most `step` the cooldown stays in [-step, 5], and a value at or below 0 is exactly 0 one update later |
| Submarine.FireTorpedo | entities.py:81-84 | firing is a no-op unless the cooldown is exactly 0; then the cooldown becomes 5 and one torpedo is appended at the same position, 40 faster, on the same heading |
| Submarine.FireTwiceLaunchesOnce | entities.py:81-84 | firing twice in a row launches exactly one torpedo |
| Submarine.SubUpdate | entities.py:61-74 | Sub.update keeps the position, speed and exploded flag Entity.update produced and the list it left, turns the heading with the wrap and steps the cooldown; trails, ping and the enemy's own fields are untouched, and the player's explosion clock is the one Entity.update left |
| Submarine.SubUpdateSettles | entities.py:61-74 | Sub.update keeps the world invariant |
| Enemies.Steer | entities.py:122-132 | the turn becomes -5, 0 or 5; it is 0 iff heading and target heading differ by less than 5, in which case the heading snaps to the freshly aimed target heading; otherwise it points towards the target heading |
| Enemies.SteerApproaches | entities.py:129-132 | for a target heading in 1..360, a heading in (0, 361) at least 5 off comes exactly 5 closer in one update, because the turn never crosses the wrap-around |
| Enemies.SteerSnaps | entities.py:122-128 | within 5 degrees the enemy takes the freshly aimed target heading and, when that lies in 1..360, still holds it after the turn step |
| Enemies.SteerCirclesBelowOne | entities.py:122-132 | with target heading 0.5 an enemy heading 5.5 + 5n keeps turning by -5 and wraps to 360.5, never snapping |
| Enemies.SteerSettlesBelowOne | entities.py:122-132 | with target heading 0.5 an enemy heading 10 turns to 5, which is within 5 of the target, so it snaps on the next update |
| Enemies.PickTarget | entities.py:142-151 | a new waypoint has both coordinates in [-500, 500], a thrust in {1, 2}, and a target heading aimed from the current position |
| Enemies.Patrolling | entities.py:137-141 | the enemy replans iff it is within 10 of its waypoint, and is otherwise unchanged |
| Enemies.EnemyUpdate | entities.py:121-141 | Enemy.update is steer, then Sub.update, then patrol: the list is what Sub.update left and the body is Sub.update's except for the thrust; within 10 of the waypoint the enemy replans with this update's draw, otherwise it is exactly Sub.update's result; the turn is -5, 0 or 5, the cooldown has stepped, pinged is kept, and any new waypoint lies in the patrol square |
| Enemies.EnemyUpdateSettles | entities.py:121-136 | Enemy.update keeps the world invariant |
| Enemies.Reveal | entities.py:103-114 | an enemy ends pinged iff it was pinged or it is on the display and within ping_time*5 + 10 of the player; jitter offsets change only on the false-to-true transition, to multiples of 3 within the randint range |
| Enemies.RevealByDistance | entities.py:104-112 | with the distance itself: an enemy closer than 290 is revealed exactly when ping_time*5 + 10 reaches its distance |
| Enemies.OffDisplayStaysHidden | entities.py:104-107 | an unpinged enemy 290 or more from the player is left exactly as it was, however large the pulse |
| Players.Retain | entities.py:193-198 | the trail loop never lengthens the list and keeps only trails younger than 5 |
| Players.RetainConcat | entities.py:193-198 | the trail filter works trail by trail, so it keeps relative order |
| Players.RetainMembers | entities.py:193-198 | a trail is kept iff it is an aged input trail younger than 5 |
| Players.Spawn | entities.py:199-204 | a trail at the current position with age 0 is appended iff speed > 0 and the list is empty or shorter than 10 with its last trail older than 0.5; a list of at most 10 stays at most 10 |
| Players.NextPing | entities.py:206-207 | 0 stays 0, 1..57 count up by one, 58 returns to 0, so 0..58 is kept |
| Players.PulseLength | entities.py:206-207 | a pulse started at p counts up to 58 and then rests at 0 |
| Players.IdleStaysIdle | entities.py:206 | an idle sonar stays idle |
| Players.PingAll | entities.py:212-213 | the game-over branch marks every listed object pinged and changes nothing else |
| Players.PlayerUpdate | entities.py:186-213 | alive: body, helm and list are what Sub.update left, the trails are the surviving aged trails plus the spawn rule's new one, the ping counter steps, every trail is younger than 5 and there are at most 10; the explosion clock is whatever Entity.update left; exploded: the body is unchanged except for pinged (so it stays exploded, still and in place), the helm, ping counter and trails are kept, the explosion clock grows by the step, and every listed object is pinged |
| Players.ExplodingUpdateStepsPing | entities.py:186-213 | a player blown up by a detonation inside its own alive update leaves that update exploded with ping_time already stepped by the sonar counter, so 1 becomes 2 and 58 becomes 0 |
| Players.GameOverSticks | entities.py:209-211 | once the explosion clock passes 3 it stays past 3 |
| Players.PlayerUpdateSettles | entities.py:186-213 | Player.update keeps the world invariant and the player's own ranges |
| Transients.Expire | entities.py:256-257 | removing oneself succeeds iff one is still listed, and otherwise raises NotListed |
| Transients.TorpedoUpdate | entities.py:249-257 | the torpedo's body is the one Entity.update produced (drifted, or blasted by a detonation) except for the explosive flag, and its lifetime and fuse are kept; the age grows by the step; the torpedo is armed iff it was armed or is now older than its fuse; up to its lifetime the update succeeds with the list Entity.update left; past it, the update succeeds exactly when the torpedo is still listed there, and then the list is that one without the torpedo |
| Transients.FuseInvariant | entities.py:254-255 | with non-negative steps "armed exactly when older than the fuse" is preserved, so arming never reverts |
| Transients.FreshTorpedoUnarmed | entities.py:241-246 | a launched torpedo (`NewTorpedo`: age 0, lifetime 7, fuse 1) starts unarmed, which satisfies the fuse invariant |
| Transients.TorpedoDetonatingAtExpiryFaults | entities.py:249-257 | a torpedo that detonates in the update in which it expires raises NotListed |
| Transients.ExplosionUpdate | entities.py:271-276 | the explosion's body is the one Entity.update produced (so it still detonates what comes near) and only its age can change; an explosion at most 3 old ages by the step and the update succeeds with the list Entity.update left; an older one keeps its age and the update succeeds exactly when it is still listed after Entity.update; a still explosion does not move |
| Transients.ExplosionExpires | entities.py:271-274 | an explosion older than 3 that survives its update leaves the list: the list is what Entity.update left without it |
| Transients.ExplosionDetonatingAtExpiryFaults | entities.py:271-274 | an expiring explosion that detonates something raises NotListed |
| Transients.TorpedoUpdateSettles | entities.py:249-257 | Torpedo.update keeps the world invariant |
| Transients.ExplosionUpdateSettles | entities.py:271-276 | Explosion.update keeps the world invariant |
| Game.Update | game.py:284 | the call runs the update of the entity's own class (Player, Enemy, Torpedo or Explosion); it keeps identity and class, non-players keep pinged, and submarines never raise |
| Game.UpdateSettles | game.py:284 | every class's update keeps the world invariant and the player's ranges |
| Game.Advance | game.py:281-284 | one loop step runs the entity's update on the list with its flag cleared when ping_time <= 1, fails exactly when that update raises, and otherwise writes the updated entity back into the list the update left; it keeps the invariant and the player first and never lengthens the list; when ping_time <= 1 every stepped object after the player, if still listed, ends unpinged; otherwise its pinged flag is kept |
| Game.TickFrom | game.py:281-284 | the rest of the pass terminates and, unless a torpedo or explosion raises, keeps the invariant with the same player first |
| Game.Tick | game.py:278-284 | a whole tick keeps the world invariant, the player first and the list no longer |
| Game.SubsOnlyStepSucceeds | game.py:281-284 | a loop step on a submarine never raises |
| Game.SpeedUp | game.py:297-298 | UP adds 10 below 30 and sets 30 from 30 upwards |
| Game.SpeedDown | game.py:299-300 | DOWN subtracts 10 above -10 and sets -10 from -10 downwards |
| Game.SpeedDialClosed | game.py:297-300 | the dial -10, 0, 10, 20, 30 is closed under UP and DOWN, which undo each other away from its ends and are fixed exactly at them |
| Game.SpeedUpOvershoots | game.py:297-298 | a speed off the dial such as 29.7 is taken past 30 |
| Game.KeyPress | game.py:287-302 | LEFT and RIGHT set the turn to -5 and 5, SPACE sets ping_time to 1, UP and DOWN step the speed, each changing only that one field of the player's body or kind; ENTER fires, and other keys change nothing; only the player changes except under ENTER |
| Game.KeyRelease | game.py:303-305 | releasing LEFT or RIGHT sets the turn to 0 and changes nothing else, and any other release changes nothing |
| Game.KeyPressKeepsWF | game.py:287-305 | every key press and release keeps the world invariant |
| Game.TapTurnKeyIsNoOp | game.py:291-305 | pressing and releasing LEFT or RIGHT while not turning leaves the game unchanged |
| Game.SpaceRestartsPulse | game.py:295-296 | SPACE restarts the pulse at 1 from any phase, and the pulse then runs for 57 more updates |
| Game.SpeedLabel | game.py:108-120 | the label is "ERROR" exactly for speeds off the dial |
| Game.LabelSpeed | game.py:108-120 | a label names a dial setting |
| Game.LabelRoundTrip | game.py:108-120 | labels and dial settings are in one-to-one correspondence: reading a setting's label gives the setting back |
| Game.ThrustLabel | entities.py:161-173 | the thrust-keyed labels give "ERROR" exactly outside thrust -1..3 |
| Game.ThrustLabelIsTerminalSpeedLabel | entities.py:161-173 | each thrust gets the label of the speed drag settles at, 10*thrust |
| Game.ToScreen | game.py:121-128 | the mapping is None exactly off the sonar display (distance 290 or more) and otherwise keeps the offset from the player, measured from the window centre |
| Game.FromScreen | game.py:121-128 | the inverse translation keeps the offset from the centre as an offset from the player |
| Game.ScreenRoundTrip | game.py:121-128 | FromScreen undoes ToScreen, and the player maps to (400, 300) |
| Game.ScreenByDistance | game.py:122 | a point maps to None iff its distance from the player is at least 290 |
| Game.ScreenKeepsOffsets | game.py:124-125 | two visible points keep their difference on the display |
| Game.Hud | game.py:271-274 | "Torpedo Ready" iff the cooldown is at most 0; otherwise "Loading Torpedo" with the positive remaining time |
| Game.HudVersusFiring | game.py:271-274 | every launch happens under "Torpedo Ready", but a negative cooldown shows "Torpedo Ready" while ENTER launches nothing |

## Left out

- Rendering, sprites, sound and the window (`arcade` calls, `on_draw` apart from the reveal test, `display_trails`, draw colours and radii, `sprite.angle`): they do not affect the simulation state.
- `arcade.close_window` after the game is over: it is the predicate `Players.ClosesWindow` on the explosion clock.
- `sin`, `cos` and `atan2`: these floating-point functions are the `bearing` and `aim` parameters of `Env`. Only `aim`'s range [0, 360] is assumed.
- Floating-point rounding: times, speeds, positions and headings are exact reals.
- `random.randint`: draws are parameters constrained to their ranges. One `Env` gives each enemy one set of replanning draws per tick.
- The `print` diagnostics and the `acceleration` field, which is only an intermediate of the drag step.
- The construction of the game (`MyGame.setup`, the constructors' random offsets and first waypoint): the model starts from any world satisfying `WF`.
- `Trail` as an entity: trails live only in the player's trail list and never enter the entity list. Their `parent_ship` back-reference and their `is_explosive` flag play no part, so a trail is a position and an age.
- Python aliasing (the shared default lists `position=[0, 0]` and `trails=[]`, and the explosion sharing the scanner's position list): incidental to the game logic.
- game.py's older duplicate entity classes, including its `Enemy.update` that faces the player: they are superseded by entities.py.
- HUD number formatting (`{:.1f}`, `{:.2f}`) and the location text: only which torpedo text is shown is modelled.

=== FILE: base.dfy ===
/**
 * Entity.update and Entity.explode (entities.py:29-53) together with the
 * Player.explode override (entities.py:225-228): drag integration, and the
 * proximity scan that detonates an entity with its first qualifying
 * neighbour.
 */
module Base {
  import opened Wrappers
  import opened Geometry
  import opened Entities
  import opened Collection

  /** The speed the drag term settles on under a constant thrust: thrust / 10 == speed * 0.01. */
  function TerminalSpeed(thrust: int): real
  {
    thrust as real * 10.0
  }

  /**
   * The integration step of Entity.update (entities.py:30-35): speed moves
   * by thrust/10 - speed*0.01, then the position moves by speed*dt along
   * the heading.  Nothing else about the entity changes.
   */
  function Drift(b: Body, dt: real, bearing: real -> Vec): (r: Body)
    ensures r.speed - TerminalSpeed(b.thrust) == (1.0 - DragCoefficient) * (b.speed - TerminalSpeed(b.thrust))
    ensures b.thrust == 0 && b.speed >= 0.0 ==> 0.0 <= r.speed <= b.speed
    ensures b.thrust == 0 && b.speed <= 0.0 ==> b.speed <= r.speed <= 0.0
    ensures b.speed == 0.0 && b.thrust == 0 ==> r == b
    ensures r == b.(speed := r.speed, pos := r.pos)
  {
    var acceleration := b.thrust as real / 10.0 - b.speed * DragCoefficient;
    var speed := b.speed + acceleration;
    b.(speed := speed, pos := Plus(b.pos, Scale(speed * dt, bearing(b.heading))))
  }

  /** The detonation guard of entities.py:39-42 for `me` scanning `e`. */
  predicate Qualifies(me: Entity, e: Entity)
  {
    && e.body.id != me.body.id
    && e.body.explosive && me.body.explosive
    && !me.body.exploded && !e.body.exploded
    && Within(me.body.pos, e.body.pos, BlastRadius)
  }

  /** Index of the first entity in list order that passes the guard. */
  function FirstPartner(me: Entity, es: seq<Entity>): (r: Option<nat>)
    ensures r.Some? ==> r.value < |es| && Qualifies(me, es[r.value])
    ensures r.Some? ==> forall j :: 0 <= j < r.value ==> !Qualifies(me, es[j])
    ensures r.None? ==> forall j :: 0 <= j < |es| ==> !Qualifies(me, es[j])
  {
    if |es| == 0 then None
    else if Qualifies(me, es[0]) then Some(0)
    else match FirstPartner(me, es[1..])
      case None => None
      case Some(k) => Some(k + 1)
  }

  /** The object after explode(): stopped and marked; a player also restarts its game-over clock. */
  function Blasted(e: Entity): Entity
  {
    var b := e.body.(speed := 0.0, exploded := true);
    if e.kind.Player? then Entity(b, e.kind.(explosionTime := 0.0)) else Entity(b, e.kind)
  }

  /**
   * `e.explode(entities)`.  Entity.explode stops and marks the object and
   * removes it from the list; removing an object that is no longer listed
   * raises ValueError, which every caller swallows, so the list is left as
   * it is.  Player.explode only stops and marks the player and starts its
   * explosion clock; the player stays listed.
   */
  function Explode(e: Entity, w: World): (r: Frame)
    // The first two clauses follow from `r.me == Blasted(e)`; they stay so
    // that the detonation proofs get these facts without unfolding Blasted.
    ensures r.me.body.exploded && r.me.body.speed == 0.0
    ensures r.me.body == e.body.(speed := 0.0, exploded := true)
    ensures r.me == Blasted(e)
    ensures r.w.nextId == w.nextId
    ensures !e.kind.Player? ==> r.w.es == Remove(w.es, e.body.id)
    ensures e.kind.Player? ==> r.w == w && r.me.kind == e.kind.(explosionTime := 0.0)
    ensures !e.kind.Player? ==> r.me.kind == e.kind
    ensures !e.kind.Player? && Has(w.es, e.body.id) ==> |r.w.es| == |w.es| - 1
    ensures !e.kind.Player? && UniqueIds(w.es) ==> !Has(r.w.es, e.body.id)
    ensures !Has(w.es, e.body.id) ==> r.w == w
  {
    RemoveDropsId(w.es, e.body.id);
    Frame(Blasted(e), if e.kind.Player? then w else w.(es := Remove(w.es, e.body.id)))
  }

  /** With every object listed once, removing an object leaves no entry of it behind. */
  lemma RemoveDropsId(es: seq<Entity>, id: nat)
    ensures UniqueIds(es) ==> !Has(Remove(es, id), id)
  {
    if UniqueIds(es) && Has(es, id) {
      var k := IndexOf(es, id).value;
      var r := Remove(es, id);
      forall j | 0 <= j < |r|
        ensures r[j].body.id != id
      {
        var j' := if j < k then j else j + 1;
        assert r[j] == es[j'];
      }
    }
  }

  /** A second explode of an object already removed changes nothing: the swallowed ValueError. */
  lemma ExplodeTwice(e: Entity, w: World)
    requires UniqueIds(w.es) && !e.kind.Player?
    ensures Explode(e, Explode(e, w).w).w == Explode(e, w).w
  {
  }

  /**
   * One detonation (entities.py:44-49): the partner at index k explodes,
   * then `me` explodes, then one Explosion with a fresh identity is
   * appended at me's position.
   */
  function Detonate(me: Entity, w: World, k: nat): (r: Frame)
    requires k < |w.es| && Qualifies(me, w.es[k])
    ensures r.me == Blasted(me)
    ensures r.w.nextId == w.nextId + 1
    ensures |r.w.es| > 0 && r.w.es[|r.w.es| - 1] == NewExplosion(w.nextId, me.body.pos)
    ensures var before := r.w.es[..|r.w.es| - 1];
            var partner := w.es[k];
            && (!partner.kind.Player? && !me.kind.Player? ==> before == Remove(Remove(w.es, partner.body.id), me.body.id))
            && (partner.kind.Player? && !me.kind.Player? ==> before == Remove(w.es[k := Blasted(partner)], me.body.id))
            && (!partner.kind.Player? && me.kind.Player? ==> before == Remove(w.es, partner.body.id))
            && (partner.kind.Player? && me.kind.Player? ==> before == w.es[k := Blasted(partner)])
    ensures k == 0 && w.es[0].kind.Player? ==> r.w.es[0] == Blasted(w.es[0])
    ensures UniqueIds(w.es) && !w.es[k].kind.Player? ==> !Has(r.w.es[..|r.w.es| - 1], w.es[k].body.id)
    ensures UniqueIds(w.es) && !me.kind.Player? ==> !Has(r.w.es[..|r.w.es| - 1], me.body.id)
  {
    var partner := w.es[k];
    var p := Explode(partner, w);
    var w1 := if partner.kind.Player? then p.w.(es := p.w.es[k := p.me]) else p.w;
    var s := Explode(me, w1);
    var es := s.w.es + [NewExplosion(s.w.nextId, s.me.body.pos)];
    assert es[..|es| - 1] == s.w.es;
    DetonateDrops(me, w, k);
    Frame(s.me, World(es, s.w.nextId + 1))
  }

  /** Appending an object changes no other identity's membership. */
  lemma HasAppendOther(es: seq<Entity>, e: Entity, id: nat)
    requires e.body.id != id
    ensures Has(es + [e], id) <==> Has(es, id)
  {
    var r := es + [e];
    if Has(es, id) {
      var i := IndexOf(es, id).value;
      assert r[i] == es[i];
    }
    if Has(r, id) {
      var i := IndexOf(r, id).value;
      assert i < |es| && r[i] == es[i];
    }
  }

  /**
   * A detonation touches only its two parties and the new explosion: every
   * other identity is listed afterwards exactly when it was listed before.
   */
  lemma DetonateKeepsOthers(me: Entity, w: World, k: nat, id: nat)
    requires k < |w.es| && Qualifies(me, w.es[k])
    requires id != w.es[k].body.id && id != me.body.id && id != w.nextId
    ensures Has(Detonate(me, w, k).w.es, id) <==> Has(w.es, id)
  {
    var partner := w.es[k];
    var r := Detonate(me, w, k);
    var before := r.w.es[..|r.w.es| - 1];
    assert r.w.es == before + [NewExplosion(w.nextId, me.body.pos)];
    HasAppendOther(before, NewExplosion(w.nextId, me.body.pos), id);
    var es1 := if partner.kind.Player? then w.es[k := Blasted(partner)] else Remove(w.es, partner.body.id);
    if partner.kind.Player? {
      assert forall j :: 0 <= j < |es1| ==> es1[j].body.id == w.es[j].body.id;
      IndexOfByIds(es1, w.es, id);
    } else {
      RemoveKeepsOthers(w.es, partner.body.id, id);
    }
    if !me.kind.Player? {
      RemoveKeepsOthers(es1, me.body.id, id);
    }
  }

  lemma DetonateDrops(me: Entity, w: World, k: nat)
    requires k < |w.es| && Qualifies(me, w.es[k])
    ensures var partner := w.es[k];
            var p := Explode(partner, w);
            var w1 := if partner.kind.Player? then p.w.(es := p.w.es[k := p.me]) else p.w;
            var s := Explode(me, w1);
            && (k == 0 && partner.kind.Player? ==> |s.w.es| > 0 && s.w.es[0] == Blasted(partner))
            && (UniqueIds(w.es) && !partner.kind.Player? ==> !Has(s.w.es, partner.body.id))
            && (UniqueIds(w.es) && !me.kind.Player? ==> !Has(s.w.es, me.body.id))
  {
    var partner := w.es[k];
    var p := Explode(partner, w);
    var w1 := if partner.kind.Player? then p.w.(es := p.w.es[k := p.me]) else p.w;
    if partner.kind.Player? {
      IndexOfByIds(w1.es, w.es, me.body.id);
      assert UniqueIds(w.es) ==> UniqueIds(w1.es);
      if k == 0 && !me.kind.Player? && Has(w1.es, me.body.id) {
        assert IndexOf(w1.es, me.body.id).value != 0;
      }
    } else if UniqueIds(w.es) {
      assert UniqueIds(w1.es) by {
        if Has(w.es, partner.body.id) {
          var i := IndexOf(w.es, partner.body.id).value;
          forall a, b | 0 <= a < b < |w1.es|
            ensures w1.es[a].body.id != w1.es[b].body.id
          {
            assert w1.es[a] == w.es[if a < i then a else a + 1];
            assert w1.es[b] == w.es[if b < i then b else b + 1];
          }
        }
      }
      if !me.kind.Player? && Has(w1.es, me.body.id) {
        RemoveKeepsOthers(w1.es, me.body.id, partner.body.id);
      }
    }
  }

  /** The scan of entities.py:37-49, detonating with at most the first qualifying partner. */
  function Scan(me: Entity, w: World): (r: Frame)
    // In the qualifying case, the blasted scanner, the new identity and the
    // appended explosion follow from Detonate's contract; they are stated
    // here too so that callers need not unfold Detonate.
    ensures (forall j :: 0 <= j < |w.es| ==> !Qualifies(me, w.es[j])) ==> r == Frame(me, w)
    ensures (exists j :: 0 <= j < |w.es| && Qualifies(me, w.es[j])) ==>
              && r.me == Blasted(me)
              && |r.w.es| > 0
              && r.w.nextId == w.nextId + 1
              && r.w.es[|r.w.es| - 1] == NewExplosion(w.nextId, me.body.pos)
              && r == Detonate(me, w, FirstPartner(me, w.es).value)
  {
    match FirstPartner(me, w.es)
    case None => Frame(me, w)
    case Some(k) => Detonate(me, w, k)
  }

  /**
   * The scan exactly as the source's loop runs it: a Python list iterator
   * walks index k over the list while detonations remove and append
   * entries under it.
   */
  function ScanFrom(me: Entity, w: World, k: nat): Frame
    decreases !me.body.exploded, |w.es| - k
  {
    if k >= |w.es| then Frame(me, w)
    else if Qualifies(me, w.es[k]) then
      var f := Detonate(me, w, k);
      ScanFrom(f.me, f.w, k + 1)
    else ScanFrom(me, w, k + 1)
  }

  /** Once `me` has exploded the rest of the loop does nothing. */
  lemma {:induction false} ScanFromExploded(me: Entity, w: World, k: nat)
    requires me.body.exploded
    ensures ScanFrom(me, w, k) == Frame(me, w)
    decreases |w.es| - k
  {
    if k < |w.es| {
      ScanFromExploded(me, w, k + 1);
    }
  }

  /**
   * The source's mutating loop and the "first qualifying partner" reading
   * agree: the loop detonates at most once, with the first partner in list
   * order, and leaves the list alone when nobody qualifies.
   */
  lemma {:induction false} ScanFromIsScan(me: Entity, w: World, k: nat)
    requires k <= |w.es|
    requires forall j :: 0 <= j < k ==> !Qualifies(me, w.es[j])
    ensures ScanFrom(me, w, k) == Scan(me, w)
    decreases |w.es| - k
  {
    if k < |w.es| {
      if Qualifies(me, w.es[k]) {
        var f := Detonate(me, w, k);
        ScanFromExploded(f.me, f.w, k + 1);
        assert FirstPartner(me, w.es) == Some(k);
      } else {
        ScanFromIsScan(me, w, k + 1);
      }
    } else {
      assert FirstPartner(me, w.es).None?;
    }
  }

  /** Entity.update: integrate, then scan; the entity keeps its kind and is at most exploded by it. */
  function EntityUpdate(me: Entity, w: World, dt: real, env: Env): (r: Frame)
    ensures var d := me.(body := Drift(me.body, dt, env.bearing));
            r.me == d || r.me == Blasted(d)
    ensures r.me.body.id == me.body.id && r.me.body.heading == me.body.heading
    ensures r.me.body.pinged == me.body.pinged && r.me.body.explosive == me.body.explosive
  {
    Scan(me.(body := Drift(me.body, dt, env.bearing)), w)
  }

  /**
   * What Entity.update does to the list: nothing when no listed object
   * passes the guard against the drifted entity, and otherwise exactly the
   * detonation with the first one that does.
   */
  lemma EntityUpdateDetonates(me: Entity, w: World, dt: real, env: Env)
    ensures var d := me.(body := Drift(me.body, dt, env.bearing));
            (forall j :: 0 <= j < |w.es| ==> !Qualifies(d, w.es[j])) ==> EntityUpdate(me, w, dt, env) == Frame(d, w)
    ensures var d := me.(body := Drift(me.body, dt, env.bearing));
            (exists j :: 0 <= j < |w.es| && Qualifies(d, w.es[j])) ==>
              && EntityUpdate(me, w, dt, env).me == Blasted(d)
              && EntityUpdate(me, w, dt, env) == Detonate(d, w, FirstPartner(d, w.es).value)
  {
  }

  /** A detonation keeps the world well formed and never lengthens the list of a listed entity. */
  lemma DetonateSettles(w: World, me: Entity, k: nat)
    requires WF(w) && Agrees(w, me)
    requires k < |w.es| && Qualifies(me, w.es[k])
    ensures Settles(w, me, Detonate(me, w, k))
  {
    var partner := w.es[k];
    var p := Explode(partner, w);
    var w1 := if partner.kind.Player? then p.w.(es := p.w.es[k := p.me]) else p.w;
    assert Has(w.es, partner.body.id);
    if partner.kind.Player? {
      assert k == 0;
      IndexOfByIds(w1.es, w.es, me.body.id);
      assert WF(w1);
    } else {
      assert k != 0;
      RemoveKeepsWF(w, partner.body.id);
      RemoveKeepsOthers(w.es, partner.body.id, me.body.id);
    }
    assert WF(w1) && w1.es[0].body.id == w.es[0].body.id;
    var s := Explode(me, w1);
    if !me.kind.Player? {
      RemoveKeepsWF(w1, me.body.id);
    }
    AppendKeepsWF(s.w, NewExplosion(s.w.nextId, s.me.body.pos));
  }

  /** Entity.update keeps the world well formed and never lengthens the list of a listed entity. */
  lemma EntityUpdateSettles(w: World, me: Entity, dt: real, env: Env)
    requires WF(w) && Agrees(w, me)
    ensures Settles(w, me, EntityUpdate(me, w, dt, env))
  {
    ScanSettles(w, me.(body := Drift(me.body, dt, env.bearing)));
  }

  /** The scan keeps the world well formed; it changes `me` only by exploding it. */
  lemma ScanSettles(w: World, me: Entity)
    requires WF(w) && Agrees(w, me)
    ensures Settles(w, me, Scan(me, w))
    ensures Scan(me, w).me == me || Scan(me, w).me == Blasted(me)
  {
    match FirstPartner(me, w.es)
    case None =>
    case Some(k) => DetonateSettles(w, me, k);
  }
}

=== FILE: collection.dfy ===
/**
 * The shared entity list and the list operations the source applies to it:
 * `list.remove(x)` (first element that is x; ValueError when there is none),
 * `list.append`, and writing back the state of the entity being updated.
 * Also the well-formedness of a world that the tick preserves.
 */
module Collection {
  import opened Wrappers
  import opened Entities

  /** Position of the first entity with identity `id`. */
  function IndexOf(es: seq<Entity>, id: nat): (r: Option<nat>)
    ensures r.Some? ==> r.value < |es| && es[r.value].body.id == id
    ensures r.Some? ==> forall j :: 0 <= j < r.value ==> es[j].body.id != id
    ensures r.None? ==> forall j :: 0 <= j < |es| ==> es[j].body.id != id
  {
    if |es| == 0 then None
    else if es[0].body.id == id then Some(0)
    else match IndexOf(es[1..], id)
      case None => None
      case Some(k) => Some(k + 1)
  }

  predicate Has(es: seq<Entity>, id: nat)
  {
    IndexOf(es, id).Some?
  }

  /** `entities.remove(x)` with the ValueError swallowed: the first x goes, an absent x changes nothing. */
  function Remove(es: seq<Entity>, id: nat): (r: seq<Entity>)
    ensures !Has(es, id) ==> r == es
    ensures Has(es, id) ==> |r| == |es| - 1
    ensures Has(es, id) ==> forall j :: 0 <= j < |r| ==>
              r[j] == es[if j < IndexOf(es, id).value then j else j + 1]
  {
    match IndexOf(es, id)
    case None => es
    case Some(k) => es[..k] + es[k + 1..]
  }

  /** Store the updated state of `e` in the list entry that is e, if e is still listed. */
  function Put(es: seq<Entity>, e: Entity): (r: seq<Entity>)
    ensures |r| == |es|
    ensures !Has(es, e.body.id) ==> r == es
    ensures Has(es, e.body.id) ==> r == es[IndexOf(es, e.body.id).value := e]
  {
    match IndexOf(es, e.body.id)
    case None => es
    case Some(k) => es[k := e]
  }

  /** The tick loop's write-back: the list entry of the updated entity takes its final state. */
  function Commit(fr: Frame): World
  {
    World(Put(fr.w.es, fr.me), fr.w.nextId)
  }

  predicate UniqueIds(es: seq<Entity>)
  {
    forall a, b :: 0 <= a < b < |es| ==> es[a].body.id != es[b].body.id
  }

  predicate IdsBelow(es: seq<Entity>, n: nat)
  {
    forall j :: 0 <= j < |es| ==> es[j].body.id < n
  }

  /** The player's own invariants: sonar phase in 0..58 and at most ten trails. */
  predicate PlayerOk(e: Entity)
  {
    && e.kind.Player?
    && 0 <= e.kind.pingTime <= PingMax
    && |e.kind.trails| <= TrailLength
  }

  /**
   * A world as MyGame.setup builds it and every tick keeps it: the player
   * first (it is never removed, and nothing is ever inserted before it) and
   * nowhere else, each object listed once, every identity already handed out.
   */
  predicate WF(w: World)
  {
    && |w.es| > 0
    && PlayerOk(w.es[0])
    && (forall j :: 1 <= j < |w.es| ==> !w.es[j].kind.Player?)
    && UniqueIds(w.es)
    && IdsBelow(w.es, w.nextId)
  }

  /** `me` is the player exactly when it has the identity of the listed player. */
  predicate Agrees(w: World, me: Entity)
  {
    |w.es| > 0 && (me.kind.Player? <==> me.body.id == w.es[0].body.id)
  }

  /**
   * What one entity's update may leave behind: a well-formed list with the
   * same player in front, no identity taken back, the entity keeping its
   * identity and kind, and, when the entity was listed, no more entries
   * than before (a detonation removes at least one and appends one).
   */
  ghost predicate Settles(w: World, me: Entity, fr: Frame)
  {
    && |w.es| > 0
    && WF(fr.w)
    && fr.w.es[0].body.id == w.es[0].body.id
    && fr.w.nextId >= w.nextId
    && fr.me.body.id == me.body.id
    && SameKind(fr.me, me)
    && (Has(w.es, me.body.id) ==> |fr.w.es| <= |w.es|)
  }

  /** Only the identities in a list decide where an identity is found. */
  lemma {:induction false} IndexOfByIds(es1: seq<Entity>, es2: seq<Entity>, id: nat)
    requires |es1| == |es2|
    requires forall j :: 0 <= j < |es1| ==> es1[j].body.id == es2[j].body.id
    ensures IndexOf(es1, id) == IndexOf(es2, id)
    decreases |es1|
  {
    if |es1| > 0 && es1[0].body.id != id {
      IndexOfByIds(es1[1..], es2[1..], id);
    }
  }

  /** Removing one listed object other than the player keeps the world well formed. */
  lemma RemoveKeepsWF(w: World, id: nat)
    requires WF(w)
    requires id != w.es[0].body.id
    ensures WF(World(Remove(w.es, id), w.nextId))
    ensures Remove(w.es, id)[0] == w.es[0]
  {
    if Has(w.es, id) {
      var k := IndexOf(w.es, id).value;
      var r := Remove(w.es, id);
      assert k != 0;
      forall a, b | 0 <= a < b < |r|
        ensures r[a].body.id != r[b].body.id
      {
        var a' := if a < k then a else a + 1;
        var b' := if b < k then b else b + 1;
        assert r[a] == w.es[a'] && r[b] == w.es[b'];
      }
    }
  }

  /** Another identity is still listed after a removal. */
  lemma RemoveKeepsOthers(es: seq<Entity>, id: nat, other: nat)
    requires other != id
    ensures Has(Remove(es, id), other) <==> Has(es, other)
  {
    if Has(es, id) {
      var k := IndexOf(es, id).value;
      var r := Remove(es, id);
      if Has(es, other) {
        var j := IndexOf(es, other).value;
        assert j != k;
        var j' := if j < k then j else j - 1;
        assert r[j'] == es[j];
      }
      if Has(r, other) {
        var j := IndexOf(r, other).value;
        assert r[j] == es[if j < k then j else j + 1];
      }
    }
  }

  /** Appending a fresh non-player object keeps the world well formed. */
  lemma AppendKeepsWF(w: World, e: Entity)
    requires WF(w)
    requires e.body.id == w.nextId && !e.kind.Player?
    ensures WF(World(w.es + [e], w.nextId + 1))
  {
    var r := w.es + [e];
    assert forall j :: 0 <= j < |w.es| ==> r[j] == w.es[j];
  }

  /** Writing back an entity that agrees with the list keeps the world well formed. */
  lemma PutKeepsWF(w: World, e: Entity)
    requires WF(w) && Agrees(w, e)
    requires e.kind.Player? ==> PlayerOk(e)
    ensures WF(World(Put(w.es, e), w.nextId))
    ensures Put(w.es, e)[0].body.id == w.es[0].body.id
  {
    if Has(w.es, e.body.id) {
      var k := IndexOf(w.es, e.body.id).value;
      assert e.kind.Player? <==> k == 0;
    }
  }

  /** The tick's write-back of a settled update keeps the world well formed. */
  lemma CommitKeepsWF(w: World, me: Entity, fr: Frame)
    requires Settles(w, me, fr) && Agrees(w, me)
    requires fr.me.kind.Player? ==> PlayerOk(fr.me)
    ensures WF(Commit(fr))
    ensures |Commit(fr).es| == |fr.w.es|
    ensures Commit(fr).es[0].body.id == w.es[0].body.id
  {
    PutKeepsWF(fr.w, fr.me);
  }
}

=== FILE: enemy.dfy ===
/**
 * Enemy (entities.py:87-151): steering towards the target heading, the
 * patrol state's waypoint replanning, and the sonar reveal of Enemy.draw
 * (game.py:84-89, entities.py:109-114).
 */
module Enemies {
  import opened Geometry
  import opened Entities
  import opened Collection
  import opened Base
  import opened Submarine

  function Abs(x: real): real { if x < 0.0 then -x else x }

  /**
   * The steering step of Enemy.update (entities.py:122-132): within 5
   * degrees of the target heading, stop turning, recompute the target
   * heading from the current position and snap onto it; otherwise turn 5
   * degrees towards it.
   */
  function Steer(me: Entity, aim: (Vec, Vec) -> real): (r: Entity)
    requires me.kind.Enemy?
    ensures r.kind.Enemy? && r.body.id == me.body.id
    ensures r.kind.helm.changeAngle == -TurnRate || r.kind.helm.changeAngle == 0 || r.kind.helm.changeAngle == TurnRate
    ensures r.kind.helm.changeAngle == 0 <==> Abs(me.body.heading - me.kind.targetHeading) < TurnRate as real
    ensures r.kind.helm.changeAngle == 0 ==>
              r.body.heading == r.kind.targetHeading == aim(me.body.pos, me.kind.target)
    ensures r.kind.helm.changeAngle != 0 ==>
              && r.kind.helm.changeAngle as real * (me.kind.targetHeading - me.body.heading) > 0.0
              && r.body == me.body && r.kind.targetHeading == me.kind.targetHeading
    ensures r.body == me.body.(heading := r.body.heading)
    ensures r.kind == me.kind.(helm := r.kind.helm, targetHeading := r.kind.targetHeading)
    ensures r.kind.helm.torpedoTime == me.kind.helm.torpedoTime
  {
    var helm := me.kind.helm;
    if Abs(me.body.heading - me.kind.targetHeading) < TurnRate as real then
      var th := aim(me.body.pos, me.kind.target);
      Entity(me.body.(heading := th), WithHelm(me.kind, helm.(changeAngle := 0)).(targetHeading := th))
    else if me.body.heading > me.kind.targetHeading then
      me.(kind := WithHelm(me.kind, helm.(changeAngle := -TurnRate)))
    else
      me.(kind := WithHelm(me.kind, helm.(changeAngle := TurnRate)))
  }

  /**
   * Steering converges: for a target heading in 1..360, a heading in the
   * band (0, 361) that is 5 or more degrees off comes exactly 5 degrees
   * closer on each update, since the turn never crosses the wrap-around.
   */
  lemma SteerApproaches(me: Entity, aim: (Vec, Vec) -> real)
    requires me.kind.Enemy?
    requires 1.0 <= me.kind.targetHeading <= 360.0
    requires 0.0 < me.body.heading < 361.0
    requires Abs(me.body.heading - me.kind.targetHeading) >= TurnRate as real
    ensures var s := Steer(me, aim);
            var h := Turn(s.body.heading, s.kind.helm.changeAngle);
            Abs(h - me.kind.targetHeading) == Abs(me.body.heading - me.kind.targetHeading) - TurnRate as real
  {
  }

  /** Within 5 degrees the enemy takes the recomputed target heading and holds it through the turn step. */
  lemma SteerSnaps(me: Entity, aim: (Vec, Vec) -> real)
    requires me.kind.Enemy?
    requires Abs(me.body.heading - me.kind.targetHeading) < TurnRate as real
    requires 1.0 <= aim(me.body.pos, me.kind.target) <= 360.0
    ensures var s := Steer(me, aim);
            Turn(s.body.heading, s.kind.helm.changeAngle) == aim(me.body.pos, me.kind.target)
  {
  }

  /**
   * For a target heading below 1 the convergence fails: headings
   * 5.5, 10.5, ..., 360.5 are all 5 or more degrees from 0.5 and each
   * update moves to another of them (5.5 turns to 0.5, which the turn step
   * wraps to 360.5), so such an enemy circles without ever snapping on.
   */
  lemma SteerCirclesBelowOne(n: int, pos: Vec, aim: (Vec, Vec) -> real)
    requires 0 <= n <= 71
    ensures var me := Entity(Body(0, pos, 0.0, 5.5 + 5.0 * n as real, 1, true, false, false),
                             Enemy(Helm(0.0, 0), Patrol, pos, 0.5, 0, 0));
            var s := Steer(me, aim);
            && Abs(me.body.heading - 0.5) >= TurnRate as real
            && Turn(s.body.heading, s.kind.helm.changeAngle) == 5.5 + 5.0 * (if n == 0 then 71 else n - 1) as real
  {
  }

  /**
   * Not every heading circles: from 10 with target heading 0.5 the turn
   * lands on 5, which is within 5 degrees of the target, so the next update
   * snaps on.
   */
  lemma SteerSettlesBelowOne(pos: Vec, aim: (Vec, Vec) -> real)
    ensures var me := Entity(Body(0, pos, 0.0, 10.0, 1, true, false, false),
                             Enemy(Helm(0.0, 0), Patrol, pos, 0.5, 0, 0));
            var s := Steer(me, aim);
            var h := Turn(s.body.heading, s.kind.helm.changeAngle);
            && s.kind.helm.changeAngle == -TurnRate
            && h == 5.0
            && Abs(h - 0.5) < TurnRate as real
  {
  }

  /** Enemy.pick_target (entities.py:142-151): a new waypoint and thrust from the draws, then aim at it. */
  function PickTarget(me: Entity, d: Draw, aim: (Vec, Vec) -> real): (r: Entity)
    requires me.kind.Enemy? && ValidDraw(d)
    ensures r.kind.Enemy? && r.body.id == me.body.id
    ensures -PatrolRadius as real <= r.kind.target.x <= PatrolRadius as real
    ensures -PatrolRadius as real <= r.kind.target.y <= PatrolRadius as real
    ensures r.body.thrust == 1 || r.body.thrust == 2
    ensures r.kind.targetHeading == aim(me.body.pos, r.kind.target)
    ensures r.body == me.body.(thrust := r.body.thrust)
    ensures r.kind == me.kind.(target := r.kind.target, targetHeading := r.kind.targetHeading)
  {
    var target := Vec(d.x as real, d.y as real);
    Entity(me.body.(thrust := d.thrust), me.kind.(target := target, targetHeading := aim(me.body.pos, target)))
  }

  /** Enemy.patrol (entities.py:137-141): replan only once within 10 units of the waypoint. */
  function Patrolling(me: Entity, d: Draw, aim: (Vec, Vec) -> real): (r: Entity)
    requires me.kind.Enemy? && ValidDraw(d)
    ensures r.kind.Enemy? && r.body.id == me.body.id
    ensures !Within(me.body.pos, me.kind.target, ReplanRadius) ==> r == me
    ensures Within(me.body.pos, me.kind.target, ReplanRadius) ==> r == PickTarget(me, d, aim)
  {
    if Within(me.body.pos, me.kind.target, ReplanRadius) then PickTarget(me, d, aim) else me
  }

  /** Enemy.update: steer, Sub.update, then the patrol step of the current state. */
  function EnemyUpdate(me: Entity, w: World, dt: real, env: Env): (r: Frame)
    requires me.kind.Enemy? && EnvOk(env)
    ensures r.me.kind.Enemy? && r.me.body.id == me.body.id
    ensures r.me.kind.helm.changeAngle == -TurnRate || r.me.kind.helm.changeAngle == 0 || r.me.kind.helm.changeAngle == TurnRate
    ensures r.me.kind.helm.torpedoTime == Cool(me.kind.helm.torpedoTime, dt)
    ensures r.me.body.pinged == me.body.pinged
    ensures r.me.kind.target != me.kind.target ==> -PatrolRadius as real <= r.me.kind.target.x <= PatrolRadius as real
    ensures r.me.kind.target != me.kind.target ==> -PatrolRadius as real <= r.me.kind.target.y <= PatrolRadius as real
    ensures var f := SubUpdate(Steer(me, env.aim), w, dt, env);
            && r.w == f.w
            && r.me.body == f.me.body.(thrust := r.me.body.thrust)
            && (Within(f.me.body.pos, f.me.kind.target, ReplanRadius) ==> r.me == PickTarget(f.me, env.replan(me.body.id), env.aim))
            && (!Within(f.me.body.pos, f.me.kind.target, ReplanRadius) ==> r.me == f.me)
  {
    var s := Steer(me, env.aim);
    var f := SubUpdate(s, w, dt, env);
    var m := match f.me.kind.mode
      case Patrol => Patrolling(f.me, env.replan(me.body.id), env.aim);
    Frame(m, f.w)
  }

  /** Enemy.update keeps the world well formed. */
  lemma EnemyUpdateSettles(w: World, me: Entity, dt: real, env: Env)
    requires WF(w) && Agrees(w, me) && me.kind.Enemy? && EnvOk(env)
    ensures Settles(w, me, EnemyUpdate(me, w, dt, env))
  {
    SubUpdateSettles(w, Steer(me, env.aim), dt, env);
  }

  /** Python's int() on a float: truncation towards zero. */
  function Trunc(x: real): int
  {
    if x >= 0.0 then x.Floor else -((-x).Floor)
  }

  /**
   * A draw of random.randint(int(speed) - 40, 40 - int(speed)); when that
   * range is empty randint raises ValueError instead, and any value stands.
   */
  predicate JitterDraw(speed: real, v: int)
  {
    var t := Trunc(speed);
    t - 40 > 40 - t || t - 40 <= v <= 40 - t
  }

  /** On the sonar display: game_coords_to_screen does not return None. */
  predicate OnScreen(p: Vec, player: Vec)
  {
    Within(p, player, 290.0)
  }

  /** Inside the current sonar pulse: ping_time * 5 + 10 >= distance to the player. */
  predicate InPulse(p: Vec, player: Entity)
    requires player.kind.Player?
  {
    Reaches(p, player.body.pos, (player.kind.pingTime * 5 + 10) as real)
  }

  /**
   * The state change of Enemy.draw: an on-screen enemy inside the pulse is
   * marked pinged, and only when it was not pinged before does it draw new
   * jitter offsets (three times the random draw).  When the randint range
   * is empty the ValueError comes after the mark, and on_draw swallows it.
   */
  function Reveal(e: Entity, player: Entity, ox: int, oy: int): (r: Entity)
    requires e.kind.Enemy? && player.kind.Player?
    requires JitterDraw(e.body.speed, ox) && JitterDraw(e.body.speed, oy)
    ensures r.kind.Enemy?
    ensures r.body == e.body.(pinged := r.body.pinged)
    ensures r.body.pinged == (e.body.pinged || (OnScreen(e.body.pos, player.body.pos) && InPulse(e.body.pos, player)))
    ensures (r.kind.offsetX, r.kind.offsetY) != (e.kind.offsetX, e.kind.offsetY) ==> !e.body.pinged && r.body.pinged
    ensures r.kind.offsetX != e.kind.offsetX ==>
              r.kind.offsetX % 3 == 0 && Abs(r.kind.offsetX as real) <= 3.0 * (40 - Trunc(e.body.speed)) as real
    ensures r.kind.offsetY != e.kind.offsetY ==>
              r.kind.offsetY % 3 == 0 && Abs(r.kind.offsetY as real) <= 3.0 * (40 - Trunc(e.body.speed)) as real
    ensures r.kind == e.kind.(offsetX := r.kind.offsetX, offsetY := r.kind.offsetY)
  {
    if OnScreen(e.body.pos, player.body.pos) && InPulse(e.body.pos, player) && !e.body.pinged then
      var b := e.body.(pinged := true);
      var t := Trunc(e.body.speed);
      if t - 40 <= 40 - t then Entity(b, e.kind.(offsetX := ox * 3, offsetY := oy * 3))
      else Entity(b, e.kind)
    else e
  }

  /**
   * In terms of the distance itself: an enemy closer than 290 is revealed
   * exactly when ping_time * 5 + 10 reaches its distance (or it was already).
   */
  lemma RevealByDistance(e: Entity, player: Entity, ox: int, oy: int, d: real)
    requires e.kind.Enemy? && player.kind.Player?
    requires JitterDraw(e.body.speed, ox) && JitterDraw(e.body.speed, oy)
    requires IsDistance(e.body.pos, player.body.pos, d) && d < 290.0
    ensures Reveal(e, player, ox, oy).body.pinged
        <==> e.body.pinged || (player.kind.pingTime * 5 + 10) as real >= d
  {
    WithinIsDistanceBelow(e.body.pos, player.body.pos, d, 290.0);
    WithinIsDistanceBelow(e.body.pos, player.body.pos, d, (player.kind.pingTime * 5 + 10) as real);
  }

  /**
   * An unpinged enemy 290 or more away stays hidden however large the
   * pulse: the reveal test is reached only through game_coords_to_screen.
   */
  lemma OffDisplayStaysHidden(e: Entity, player: Entity, ox: int, oy: int, d: real)
    requires e.kind.Enemy? && player.kind.Player? && !e.body.pinged
    requires JitterDraw(e.body.speed, ox) && JitterDraw(e.body.speed, oy)
    requires IsDistance(e.body.pos, player.body.pos, d) && d >= 290.0
    ensures Reveal(e, player, ox, oy) == e
  {
    WithinIsDistanceBelow(e.body.pos, player.body.pos, d, 290.0);
  }
}

=== FILE: entities.dfy ===
/**
 * Data model of the simulation (entities.py).
 *
 * The source's class chain Entity -> Sub -> Player/Enemy and
 * Entity -> Torpedo/Trail/Explosion becomes one kinematic record `Body`
 * shared by every kind plus a tagged `Kind` holding what each subclass adds.
 * Python object identity (`is`, `list.remove`) is the `id` field; a world
 * hands out fresh ids through `nextId`.
 */
module Entities {
  import opened Geometry

  // Constants of entities.py and game.py.
  const PatrolRadius: int := 500          // entities.py:13
  const DragCoefficient: real := 0.01     // entities.py:27
  const BlastRadius: real := 20.0         // entities.py:41
  const TurnRate: int := 5                // entities.py:130-132, game.py:9
  const Reload: real := 5.0               // entities.py:83
  const LaunchBoost: real := 40.0         // entities.py:84
  const ReplanRadius: real := 10.0        // entities.py:140
  const TrailMaxAge: real := 5.0          // entities.py:190
  const TrailLength: int := 10            // entities.py:191
  const PingMax: int := 58                // entities.py:207
  const TorpedoLifetime: real := 7.0      // entities.py:242
  const TorpedoFuse: real := 1.0          // entities.py:242
  const TorpedoThrust: int := 3           // entities.py:243
  const ExplosionLife: real := 3.0        // entities.py:273
  const GameOverDelay: real := 3.0        // entities.py:210

  /** State every entity has (Entity.__init__ plus the `pinged` flag the game loop sets on all of them). */
  datatype Body = Body(
    id: nat,
    pos: Vec,
    speed: real,
    heading: real,
    thrust: int,
    explosive: bool,
    exploded: bool,
    pinged: bool)

  /** What Sub adds: the torpedo cooldown and the turn currently applied per update. */
  datatype Helm = Helm(torpedoTime: real, changeAngle: int)

  /** A trail marker; it lives only in its player's list and never moves, so only place and age matter. */
  datatype Trail = Trail(pos: Vec, age: real)

  /** Enemy.state; "patrol" is the only state the source ever assigns. */
  datatype Mode = Patrol

  datatype Kind =
    | Player(helm: Helm, trails: seq<Trail>, pingTime: int, explosionTime: real)
    | Enemy(helm: Helm, mode: Mode, target: Vec, targetHeading: real, offsetX: int, offsetY: int)
    | Torpedo(age: real, lifetime: real, fuseLength: real)
    | Explosion(age: real)

  datatype Entity = Entity(body: Body, kind: Kind)

  /** The shared entity list of the game window and the next unused identity. */
  datatype World = World(es: seq<Entity>, nextId: nat)

  /** An entity part-way through its own update: its current state and the list as it stands. */
  datatype Frame = Frame(me: Entity, w: World)

  /** The kinds derived from Sub, the ones that carry a Helm. */
  predicate IsSub(e: Entity)
  {
    e.kind.Player? || e.kind.Enemy?
  }

  predicate SameKind(a: Entity, b: Entity)
  {
    && (a.kind.Player? <==> b.kind.Player?)
    && (a.kind.Enemy? <==> b.kind.Enemy?)
    && (a.kind.Torpedo? <==> b.kind.Torpedo?)
    && (a.kind.Explosion? <==> b.kind.Explosion?)
  }

  /** A Sub's kind with its Helm replaced. */
  function WithHelm(k: Kind, h: Helm): (r: Kind)
    requires k.Player? || k.Enemy?
    ensures r.Player? == k.Player? && r.Enemy? == k.Enemy? && r.helm == h
  {
    match k
    case Player(_, trails, ping, t) => Player(h, trails, ping, t)
    case Enemy(_, mode, target, th, ox, oy) => Enemy(h, mode, target, th, ox, oy)
  }

  /** A torpedo's or explosion's kind with its age replaced. */
  function WithAge(k: Kind, age: real): (r: Kind)
    requires k.Torpedo? || k.Explosion?
    ensures r.Torpedo? == k.Torpedo? && r.Explosion? == k.Explosion? && r.age == age
  {
    match k
    case Torpedo(_, lifetime, fuse) => Torpedo(age, lifetime, fuse)
    case Explosion(_) => Explosion(age)
  }

  /** An exception that escapes the game loop: `entities.remove(self)` for an object no longer listed. */
  datatype Fault = NotListed(id: nat)

  /** Three random draws of pick_target: two waypoint coordinates and a thrust. */
  datatype Draw = Draw(x: int, y: int, thrust: int)

  /** The ranges random.randint guarantees at entities.py:143-148. */
  predicate ValidDraw(d: Draw)
  {
    && -PatrolRadius <= d.x <= PatrolRadius
    && -PatrolRadius <= d.y <= PatrolRadius
    && 1 <= d.thrust <= 2
  }

  /**
   * What the simulation takes from outside: `bearing(h)` is
   * (sin h, cos h) of a heading in degrees, `aim(p, t)` is
   * 180 + degrees(atan2(p.x - t.x, p.y - t.y)), the heading from p
   * towards t, and `replan(id)` the draws an enemy gets if it replans.
   */
  datatype Env = Env(bearing: real -> Vec, aim: (Vec, Vec) -> real, replan: nat -> Draw)

  /** atan2 lies in [-180, 180] degrees, so aim lies in [0, 360]; randint stays in range. */
  ghost predicate EnvOk(env: Env)
  {
    && (forall k: nat :: ValidDraw(env.replan(k)))
    && (forall p, t :: 0.0 <= env.aim(p, t) <= 360.0)
  }

  /** Torpedo(position, speed, heading) with the default lifetime 7 and fuse 1 (entities.py:241-246). */
  function NewTorpedo(id: nat, pos: Vec, speed: real, heading: real): Entity
  {
    Entity(Body(id, pos, speed, heading, TorpedoThrust, false, false, false),
           Torpedo(0.0, TorpedoLifetime, TorpedoFuse))
  }

  /** Explosion(position): speed 0, heading 360 and, by Entity's default, explosive (entities.py:267-270). */
  function NewExplosion(id: nat, pos: Vec): Entity
  {
    Entity(Body(id, pos, 0.0, 360.0, 0, true, false, false), Explosion(0.0))
  }
}

=== FILE: game.dfy ===
/**
 * The game window's rules (game.py): the per-tick update loop, the key
 * handlers, the speed dial labels, the sonar screen mapping and the
 * torpedo line of the HUD.
 */
module Game {
  import opened Wrappers
  import opened Geometry
  import opened Entities
  import opened Collection
  import opened Base
  import opened Submarine
  import opened Enemies
  import opened Players
  import opened Transients

  const ScreenWidth: int := 800   // game.py:7
  const ScreenHeight: int := 600  // game.py:8

  /** Dispatch of `entity.update(delta_time, entities)` on the entity's class. */
  function Update(me: Entity, w: World, dt: real, env: Env): (r: Result<Frame, Fault>)
    requires EnvOk(env)
    ensures r.Success? ==> r.value.me.body.id == me.body.id && SameKind(r.value.me, me)
    ensures r.Success? && !me.kind.Player? ==> r.value.me.body.pinged == me.body.pinged
    ensures IsSub(me) ==> r.Success?
    ensures me.kind.Player? ==> r == Success(PlayerUpdate(me, w, dt, env))
    ensures me.kind.Enemy? ==> r == Success(EnemyUpdate(me, w, dt, env))
    ensures me.kind.Torpedo? ==> r == TorpedoUpdate(me, w, dt, env)
    ensures me.kind.Explosion? ==> r == ExplosionUpdate(me, w, dt, env)
  {
    if me.kind.Player? then Success(PlayerUpdate(me, w, dt, env))
    else if me.kind.Enemy? then Success(EnemyUpdate(me, w, dt, env))
    else if me.kind.Torpedo? then TorpedoUpdate(me, w, dt, env)
    else ExplosionUpdate(me, w, dt, env)
  }

  /** Whatever the entity's class, a successful update leaves a well-formed world. */
  lemma UpdateSettles(w: World, me: Entity, dt: real, env: Env)
    requires WF(w) && Agrees(w, me) && EnvOk(env)
    requires me.kind.Player? ==> PlayerOk(me)
    ensures var r := Update(me, w, dt, env);
            r.Success? ==> Settles(w, me, r.value) && (r.value.me.kind.Player? ==> PlayerOk(r.value.me))
  {
    if me.kind.Player? {
      PlayerUpdateSettles(w, me, dt, env);
    } else if me.kind.Enemy? {
      EnemyUpdateSettles(w, me, dt, env);
    } else if me.kind.Torpedo? {
      TorpedoUpdateSettles(w, me, dt, env);
    } else {
      ExplosionUpdateSettles(w, me, dt, env);
    }
  }

  /** The player's sonar phase, `self.player.ping_time`. */
  function PingOf(w: World): int
    requires |w.es| > 0 && w.es[0].kind.Player?
  {
    w.es[0].kind.pingTime
  }

  /** Writing an entity back after its update shows it at its place in the list. */
  lemma CommitShows(fr: Frame)
    ensures var es := Commit(fr).es;
            Has(es, fr.me.body.id) <==> Has(fr.w.es, fr.me.body.id)
    ensures var es := Commit(fr).es;
            Has(es, fr.me.body.id) ==> es[IndexOf(es, fr.me.body.id).value] == fr.me
  {
    var es := Commit(fr).es;
    assert forall j :: 0 <= j < |es| ==> es[j].body.id == fr.w.es[j].body.id;
    IndexOfByIds(es, fr.w.es, fr.me.body.id);
  }

  /** Clearing one entity's `pinged` flag changes nothing the invariant looks at. */
  lemma ClearKeepsWF(w: World, i: nat, me: Entity)
    requires WF(w) && i < |w.es| && me == w.es[i].(body := w.es[i].body.(pinged := false))
    ensures WF(World(w.es[i := me], w.nextId)) && Agrees(World(w.es[i := me], w.nextId), me)
    ensures Has(w.es[i := me], me.body.id)
    ensures me.kind.Player? ==> PlayerOk(me)
  {
    var es := w.es[i := me];
    assert forall j :: 0 <= j < |es| ==> es[j].body.id == w.es[j].body.id;
    IndexOfByIds(es, w.es, me.body.id);
    if i > 0 {
      assert w.es[0].body.id != w.es[i].body.id;
    }
  }

  /**
   * One step of MyGame.update's loop (game.py:281-284): while the player's
   * ping_time is at most 1 the entity at index i has `pinged` cleared, then
   * it updates itself against the live list, and its new state is what the
   * list holds from then on.  Only a torpedo or an explosion can raise.
   */
  function Advance(w: World, i: nat, dt: real, env: Env): (r: Result<World, Fault>)
    requires WF(w) && i < |w.es| && EnvOk(env)
    ensures r.Success? ==> WF(r.value) && |r.value.es| <= |w.es| && r.value.nextId >= w.nextId
    ensures r.Success? ==> r.value.es[0].body.id == w.es[0].body.id
    ensures r.Failure? ==> w.es[i].kind.Torpedo? || w.es[i].kind.Explosion?
    ensures r.Success? && PingOf(w) <= 1 && i > 0 && Has(r.value.es, w.es[i].body.id) ==>
              !r.value.es[IndexOf(r.value.es, w.es[i].body.id).value].body.pinged
    ensures r.Success? && PingOf(w) > 1 && i > 0 && Has(r.value.es, w.es[i].body.id) ==>
              r.value.es[IndexOf(r.value.es, w.es[i].body.id).value].body.pinged == w.es[i].body.pinged
    ensures var e := w.es[i];
            var me := if PingOf(w) <= 1 then e.(body := e.body.(pinged := false)) else e;
            var u := Update(me, World(w.es[i := me], w.nextId), dt, env);
            && (r.Success? <==> u.Success?)
            && (r.Success? ==> r.value == Commit(u.value))
  {
    var e := w.es[i];
    var me := if PingOf(w) <= 1 then e.(body := e.body.(pinged := false)) else e;
    var w1 := World(w.es[i := me], w.nextId);
    if PingOf(w) <= 1 then
      ClearKeepsWF(w, i, me);
      UpdateSettles(w1, me, dt, env);
      AdvanceCommit(w, w1, i, me, dt, env)
    else
      assert w1 == w;
      assert Agrees(w, me) by { if i > 0 { assert w.es[0].body.id != w.es[i].body.id; } }
      UpdateSettles(w1, me, dt, env);
      AdvanceCommit(w, w1, i, me, dt, env)
  }

  /** The update-and-write-back half of Advance, once the entity is prepared. */
  function AdvanceCommit(w: World, w1: World, i: nat, me: Entity, dt: real, env: Env): (r: Result<World, Fault>)
    requires WF(w) && i < |w.es| && EnvOk(env)
    requires WF(w1) && Agrees(w1, me) && |w1.es| == |w.es| && w1.nextId == w.nextId
    requires w1.es[0].body.id == w.es[0].body.id && Has(w1.es, me.body.id)
    requires me.body.id == w.es[i].body.id && SameKind(me, w.es[i]) && (me.kind.Player? ==> PlayerOk(me))
    ensures r.Success? ==> WF(r.value) && |r.value.es| <= |w.es| && r.value.nextId >= w.nextId
    ensures r.Success? ==> r.value.es[0].body.id == w.es[0].body.id
    ensures r.Failure? ==> me.kind.Torpedo? || me.kind.Explosion?
    ensures (r.Success? <==> Update(me, w1, dt, env).Success?)
    ensures r.Success? ==> r.value == Commit(Update(me, w1, dt, env).value)
    ensures r.Success? && !me.kind.Player? && Has(r.value.es, me.body.id) ==>
              r.value.es[IndexOf(r.value.es, me.body.id).value].body.pinged == me.body.pinged
  {
    UpdateSettles(w1, me, dt, env);
    match Update(me, w1, dt, env)
    case Failure(f) => Failure(f)
    case Success(fr) =>
      CommitKeepsWF(w1, me, fr);
      CommitShows(fr);
      Success(Commit(fr))
  }

  /**
   * The rest of one tick from index i: Python's list iterator re-reads the
   * length on every step, so entities appended during the tick are updated
   * in the same tick, and a removal before the cursor skips the next one.
   */
  function TickFrom(w: World, i: nat, dt: real, env: Env): (r: Result<World, Fault>)
    requires WF(w) && EnvOk(env)
    ensures r.Success? ==> WF(r.value) && r.value.es[0].body.id == w.es[0].body.id
    ensures r.Success? ==> |r.value.es| <= |w.es| && r.value.nextId >= w.nextId
    ensures i >= |w.es| ==> r == Success(w)
    decreases |w.es| - i
  {
    if i >= |w.es| then Success(w)
    else
      match Advance(w, i, dt, env)
      case Failure(f) => Failure(f)
      case Success(w') => TickFrom(w', i + 1, dt, env)
  }

  /** MyGame.update: one pass over the entity list. */
  function Tick(w: World, dt: real, env: Env): (r: Result<World, Fault>)
    requires WF(w) && EnvOk(env)
    ensures r.Success? ==> WF(r.value) && r.value.es[0].body.id == w.es[0].body.id
    ensures r.Success? ==> |r.value.es| <= |w.es| && r.value.nextId >= w.nextId
  {
    TickFrom(w, 0, dt, env)
  }

  /** Updating a submarine never raises: only torpedoes and explosions can end a tick early. */
  lemma {:induction false} SubsOnlyStepSucceeds(w: World, i: nat, dt: real, env: Env)
    requires WF(w) && EnvOk(env) && i < |w.es| && IsSub(w.es[i])
    ensures Advance(w, i, dt, env).Success?
  {
    var e := w.es[i];
    var me := if PingOf(w) <= 1 then e.(body := e.body.(pinged := false)) else e;
    assert IsSub(me);
  }

  // ---------------------------------------------------------------- keys

  datatype Key = Left | Right | Space | Up | Down | Enter | OtherKey(code: int)

  /** The five settings of the speed dial. */
  predicate OnSpeedDial(s: real)
  {
    s == -10.0 || s == 0.0 || s == 10.0 || s == 20.0 || s == 30.0
  }

  /** UP (game.py:297-298): ten faster, but never past 30 from 30 or above. */
  function SpeedUp(s: real): (r: real)
    ensures s < 30.0 ==> r == s + 10.0 && r < 40.0
    ensures s >= 30.0 ==> r == 30.0
  {
    if s < 30.0 then s + 10.0 else 30.0
  }

  /** DOWN (game.py:299-300): ten slower, but never past -10 from -10 or below. */
  function SpeedDown(s: real): (r: real)
    ensures s > -10.0 ==> r == s - 10.0 && r > -20.0
    ensures s <= -10.0 ==> r == -10.0
  {
    if s > -10.0 then s - 10.0 else -10.0
  }

  /** The dial is closed under both keys, and UP and DOWN undo each other away from the ends. */
  lemma SpeedDialClosed(s: real)
    requires OnSpeedDial(s)
    ensures OnSpeedDial(SpeedUp(s)) && OnSpeedDial(SpeedDown(s))
    ensures s < 30.0 ==> SpeedDown(SpeedUp(s)) == s
    ensures s > -10.0 ==> SpeedUp(SpeedDown(s)) == s
    ensures s == 30.0 <==> SpeedUp(s) == s
    ensures s == -10.0 <==> SpeedDown(s) == s
  {
  }

  /** Off the dial the clamp does not apply: 29.7 goes to 39.7, past the top setting. */
  lemma SpeedUpOvershoots()
    ensures SpeedUp(29.7) == 39.7 && !OnSpeedDial(SpeedUp(29.7))
  {
  }

  /** The player with a new state, everything else as it was. */
  function WithPlayer(w: World, p: Entity): (r: World)
    requires |w.es| > 0
    ensures |r.es| == |w.es| && r.nextId == w.nextId && r.es[0] == p
    ensures forall j :: 1 <= j < |w.es| ==> r.es[j] == w.es[j]
  {
    w.(es := w.es[0 := p])
  }

  /** The player with its turn set, as LEFT, RIGHT and their release do. */
  function Steered(p: Entity, change: int): (r: Entity)
    requires p.kind.Player?
    ensures r.kind.Player? && r.body == p.body && r.kind.helm.changeAngle == change
    ensures r.kind.helm.torpedoTime == p.kind.helm.torpedoTime
    ensures r.kind.pingTime == p.kind.pingTime && r.kind.trails == p.kind.trails
  {
    p.(kind := WithHelm(p.kind, p.kind.helm.(changeAngle := change)))
  }

  /** MyGame.on_key_press (game.py:287-302); ENTER fires through Sub.fire_torpedo. */
  function KeyPress(w: World, k: Key): (r: World)
    requires |w.es| > 0 && w.es[0].kind.Player?
    ensures |r.es| > 0 && r.es[0].kind.Player? && r.es[0].body.id == w.es[0].body.id
    ensures k != Enter ==> |r.es| == |w.es| && r.nextId == w.nextId
    ensures k != Enter ==> forall j :: 1 <= j < |w.es| ==> r.es[j] == w.es[j]
    ensures k == Left || k == Right ==>
              && r.es[0].body == w.es[0].body
              && WithHelm(r.es[0].kind, w.es[0].kind.helm) == w.es[0].kind
              && r.es[0].kind.helm.torpedoTime == w.es[0].kind.helm.torpedoTime
    ensures k == Left ==> r.es[0].kind.helm.changeAngle == -TurnRate
    ensures k == Right ==> r.es[0].kind.helm.changeAngle == TurnRate
    ensures k == Space ==> r.es[0].kind == w.es[0].kind.(pingTime := 1) && r.es[0].body == w.es[0].body
    ensures k == Up ==> r.es[0].body.speed == SpeedUp(w.es[0].body.speed) && r.es[0].kind == w.es[0].kind
    ensures k == Down ==> r.es[0].body.speed == SpeedDown(w.es[0].body.speed) && r.es[0].kind == w.es[0].kind
    ensures k == Up || k == Down ==> r.es[0].body == w.es[0].body.(speed := r.es[0].body.speed)
    ensures k == Enter ==> r == Commit(FireTorpedo(w.es[0], w))
    ensures k.OtherKey? ==> r == w
  {
    var p := w.es[0];
    match k
    case Left => WithPlayer(w, Steered(p, -TurnRate))
    case Right => WithPlayer(w, Steered(p, TurnRate))
    case Space => WithPlayer(w, p.(kind := p.kind.(pingTime := 1)))
    case Up => WithPlayer(w, p.(body := p.body.(speed := SpeedUp(p.body.speed))))
    case Down => WithPlayer(w, p.(body := p.body.(speed := SpeedDown(p.body.speed))))
    case Enter =>
      var f := FireTorpedo(p, w);
      CommitShows(f);
      IndexOfFirst(w.es, p.body.id);
      Commit(f)
    case OtherKey(_) => w
  }

  /** The first entry is where its own id is found. */
  lemma IndexOfFirst(es: seq<Entity>, id: nat)
    requires |es| > 0 && es[0].body.id == id
    ensures IndexOf(es, id) == Some(0)
  {
  }

  /** MyGame.on_key_release (game.py:303-305): letting go of LEFT or RIGHT stops the turn. */
  function KeyRelease(w: World, k: Key): (r: World)
    requires |w.es| > 0 && w.es[0].kind.Player?
    ensures |r.es| > 0 && r.es[0].kind.Player? && r.es[0].body.id == w.es[0].body.id
    ensures (k == Left || k == Right) ==> r.es[0].kind.helm.changeAngle == 0
    ensures (k == Left || k == Right) ==>
              && r.es[0].body == w.es[0].body
              && WithHelm(r.es[0].kind, w.es[0].kind.helm) == w.es[0].kind
              && r.es[0].kind.helm.torpedoTime == w.es[0].kind.helm.torpedoTime
    ensures (k == Left || k == Right) ==> |r.es| == |w.es| && forall j :: 1 <= j < |w.es| ==> r.es[j] == w.es[j]
    ensures !(k == Left || k == Right) ==> r == w
  {
    if k == Left || k == Right then WithPlayer(w, Steered(w.es[0], 0)) else w
  }

  /** Every key keeps the world well formed, ENTER included. */
  lemma KeyPressKeepsWF(w: World, k: Key)
    requires WF(w)
    ensures WF(KeyPress(w, k)) && WF(KeyRelease(w, k))
  {
    var p := w.es[0];
    if k == Enter {
      var f := FireTorpedo(p, w);
      if p.kind.helm.torpedoTime == 0.0 {
        var t := NewTorpedo(w.nextId, p.body.pos, p.body.speed + LaunchBoost, p.body.heading);
        AppendKeepsWF(w, t);
      }
      PutKeepsWF(f.w, f.me);
    } else {
      var r := KeyPress(w, k);
      assert forall j :: 0 <= j < |r.es| ==> r.es[j].body.id == w.es[j].body.id;
    }
    var q := KeyRelease(w, k);
    assert forall j :: 0 <= j < |q.es| ==> q.es[j].body.id == w.es[j].body.id;
  }

  /** Tapping LEFT or RIGHT while not turning leaves the game as it was. */
  lemma TapTurnKeyIsNoOp(w: World, k: Key)
    requires |w.es| > 0 && w.es[0].kind.Player? && w.es[0].kind.helm.changeAngle == 0
    requires k == Left || k == Right
    ensures KeyRelease(KeyPress(w, k), k) == w
  {
    var r := KeyRelease(KeyPress(w, k), k);
    assert r.es[0] == w.es[0];
    assert r.es == w.es;
  }

  /** SPACE restarts the pulse from any phase; it then runs to the end of its 58 steps. */
  lemma SpaceRestartsPulse(w: World, n: nat)
    requires |w.es| > 0 && w.es[0].kind.Player?
    ensures PingOf(KeyPress(w, Space)) == 1
    ensures n <= PingMax - 1 ==> PingAfter(PingOf(KeyPress(w, Space)), n) == 1 + n
    ensures n > PingMax - 1 ==> PingAfter(PingOf(KeyPress(w, Space)), n) == 0
  {
    PulseLength(1, n);
  }

  // ------------------------------------------------------------- labels

  /** Player.get_pretty_speed (game.py:108-120). */
  function SpeedLabel(s: real): (r: string)
    ensures r == "ERROR" <==> !OnSpeedDial(s)
  {
    if s == -10.0 then "Astern Slow"
    else if s == 0.0 then "All Stop"
    else if s == 10.0 then "Ahead Slow"
    else if s == 20.0 then "Ahead Standard"
    else if s == 30.0 then "Ahead Flank"
    else "ERROR"
  }

  /** Reading a label back into the speed it names. */
  function LabelSpeed(l: string): (r: Option<real>)
    ensures r.Some? ==> OnSpeedDial(r.value)
  {
    if l == "Astern Slow" then Some(-10.0)
    else if l == "All Stop" then Some(0.0)
    else if l == "Ahead Slow" then Some(10.0)
    else if l == "Ahead Standard" then Some(20.0)
    else if l == "Ahead Flank" then Some(30.0)
    else None
  }

  /** The five dial settings have five different labels, and each label names its setting. */
  lemma LabelRoundTrip(s: real, l: string)
    ensures OnSpeedDial(s) ==> LabelSpeed(SpeedLabel(s)) == Some(s)
    ensures !OnSpeedDial(s) ==> LabelSpeed(SpeedLabel(s)).None?
    ensures LabelSpeed(l) == Some(s) ==> SpeedLabel(s) == l
  {
  }

  /**
   * The entities.py Player.get_pretty_speed (entities.py:161-173) keys the
   * same five labels on the thrust setting -1..3 instead of the speed.
   */
  function ThrustLabel(thrust: int): (r: string)
    ensures r == "ERROR" <==> !(-1 <= thrust <= 3)
  {
    if thrust == -1 then "Astern Slow"
    else if thrust == 0 then "All Stop"
    else if thrust == 1 then "Ahead Slow"
    else if thrust == 2 then "Ahead Standard"
    else if thrust == 3 then "Ahead Flank"
    else "ERROR"
  }

  /** The two label tables agree through the terminal speed: thrust t names the speed drag settles at, 10 t. */
  lemma ThrustLabelIsTerminalSpeedLabel(thrust: int)
    ensures ThrustLabel(thrust) == SpeedLabel(TerminalSpeed(thrust))
  {
  }

  // ------------------------------------------------------------- screen

  /** Where the player is drawn: the window centre, (800 // 2, 600 // 2). */
  function Centre(): Vec
  {
    Vec((ScreenWidth / 2) as real, (ScreenHeight / 2) as real)
  }

  /**
   * Player.game_coords_to_screen (game.py:121-128): None beyond the sonar
   * radius, otherwise the point shifted so that the player sits at the centre.
   */
  function ToScreen(p: Vec, player: Vec): (r: Option<Vec>)
    ensures r.None? <==> !OnScreen(p, player)
    ensures r.Some? ==> Minus(r.value, Centre()) == Minus(p, player)
  {
    if Within(p, player, 290.0) then Some(Plus(p, Minus(Centre(), player))) else None
  }

  /** The inverse translation, from the display back to the game plane. */
  function FromScreen(q: Vec, player: Vec): (r: Vec)
    ensures Minus(r, player) == Minus(q, Centre())
  {
    Plus(q, Minus(player, Centre()))
  }

  /** Screen mapping is undone by FromScreen, and the player is drawn at the centre. */
  lemma ScreenRoundTrip(p: Vec, player: Vec)
    ensures ToScreen(p, player).Some? ==> FromScreen(ToScreen(p, player).value, player) == p
    ensures ToScreen(player, player) == Some(Centre())
  {
    DistanceZero(player, player, 0.0);
  }

  /** In terms of calculate_distance: a point maps to None exactly when it is 290 or more away. */
  lemma ScreenByDistance(p: Vec, player: Vec, d: real)
    requires IsDistance(p, player, d)
    ensures ToScreen(p, player).None? <==> d >= 290.0
  {
    WithinIsDistanceBelow(p, player, d, 290.0);
  }

  /** Two visible points keep their offset from each other on the display. */
  lemma ScreenKeepsOffsets(p: Vec, q: Vec, player: Vec)
    requires ToScreen(p, player).Some? && ToScreen(q, player).Some?
    ensures Minus(ToScreen(p, player).value, ToScreen(q, player).value) == Minus(p, q)
  {
  }

  // ---------------------------------------------------------------- HUD

  datatype HudText = TorpedoReady | LoadingTorpedo(remaining: real)

  /** The torpedo line of on_draw (game.py:271-274). */
  function Hud(torpedoTime: real): (r: HudText)
    ensures r == TorpedoReady <==> torpedoTime <= 0.0
    ensures r.LoadingTorpedo? ==> r.remaining == torpedoTime && r.remaining > 0.0
  {
    if torpedoTime <= 0.0 then TorpedoReady else LoadingTorpedo(torpedoTime)
  }

  /**
   * The HUD and fire_torpedo disagree below zero: a launch always happens
   * under "Torpedo Ready", but with a cooldown momentarily negative the
   * HUD says ready and ENTER launches nothing.
   */
  lemma HudVersusFiring(w: World)
    requires WF(w)
    ensures var p := w.es[0];
            |KeyPress(w, Enter).es| > |w.es| ==> Hud(p.kind.helm.torpedoTime) == TorpedoReady
    ensures var p := w.es[0];
            p.kind.helm.torpedoTime < 0.0 ==> Hud(p.kind.helm.torpedoTime) == TorpedoReady && KeyPress(w, Enter) == w
  {
    var p := w.es[0];
    var f := FireTorpedo(p, w);
    if p.kind.helm.torpedoTime != 0.0 {
      assert f == Frame(p, w);
      IndexOfFirst(w.es, p.body.id);
      assert Put(w.es, p) == w.es;
    }
  }
}

=== FILE: geometry.dfy ===
/**
 * Plane geometry of the game world (utilities.py).
 *
 * calculate_distance returns the square root of a sum of squares.  Dafny's
 * reals have no square root, so the distance is a relation `IsDistance`
 * between two points and a non-negative real, and every threshold test of
 * the game ("distance < 20", "range >= distance") is decided on the squared
 * distance; the lemmas below show that the two readings agree.
 */
module Geometry {

  datatype Vec = Vec(x: real, y: real)

  function Plus(a: Vec, b: Vec): Vec { Vec(a.x + b.x, a.y + b.y) }

  function Minus(a: Vec, b: Vec): Vec { Vec(a.x - b.x, a.y - b.y) }

  function Scale(k: real, a: Vec): Vec { Vec(k * a.x, k * a.y) }

  /** Sum of squared coordinate differences: what calculate_distance takes the root of. */
  function DistSq(a: Vec, b: Vec): (d: real)
    ensures d >= 0.0
    ensures d == 0.0 <==> a == b
  {
    SquareZero(b.x - a.x);
    SquareZero(b.y - a.y);
    (b.x - a.x) * (b.x - a.x) + (b.y - a.y) * (b.y - a.y)
  }

  lemma SquareZero(u: real)
    ensures u * u >= 0.0
    ensures u * u == 0.0 <==> u == 0.0
  {
    if u > 0.0 {
      SquareStrict(0.0, u);
    } else if u < 0.0 {
      var v := -u;
      SquareStrict(0.0, v);
      assert u * u == v * v;
    }
  }

  lemma SquareStrict(d: real, r: real)
    requires 0.0 <= d < r
    ensures d * d < r * r
  {
    var dd := d * d;
    var dr := d * r;
    var rr := r * r;
    assert dd <= dr;
    assert dr < rr;
  }

  lemma SquareMonotone(d: real, r: real)
    requires 0.0 <= d && 0.0 <= r
    ensures d < r <==> d * d < r * r
    ensures d <= r <==> d * d <= r * r
  {
    if d < r {
      SquareStrict(d, r);
    } else if r < d {
      SquareStrict(r, d);
    }
  }

  /** `d` is the value calculate_distance(a, b) returns: the non-negative root of DistSq(a, b). */
  ghost predicate IsDistance(a: Vec, b: Vec, d: real)
  {
    d >= 0.0 && d * d == DistSq(a, b)
  }

  /** calculate_distance(a, b) < r */
  predicate Within(a: Vec, b: Vec, r: real)
  {
    0.0 <= r && DistSq(a, b) < r * r
  }

  /** calculate_distance(a, b) <= r */
  predicate Reaches(a: Vec, b: Vec, r: real)
  {
    0.0 <= r && DistSq(a, b) <= r * r
  }

  /** The squared-distance test is exactly the test on the distance itself, for every threshold. */
  lemma WithinIsDistanceBelow(a: Vec, b: Vec, d: real, r: real)
    requires IsDistance(a, b, d)
    ensures Within(a, b, r) <==> d < r
    ensures Reaches(a, b, r) <==> d <= r
  {
    if 0.0 <= r {
      SquareMonotone(d, r);
    }
  }

  /** calculate_distance(a, b) == calculate_distance(b, a) */
  lemma DistanceSymmetric(a: Vec, b: Vec, d: real)
    ensures IsDistance(a, b, d) <==> IsDistance(b, a, d)
  {
    assert (b.x - a.x) * (b.x - a.x) == (a.x - b.x) * (a.x - b.x);
    assert (b.y - a.y) * (b.y - a.y) == (a.y - b.y) * (a.y - b.y);
  }

  /** calculate_distance(p, p) == 0, and 0 is the distance of a point only to itself. */
  lemma DistanceZero(a: Vec, b: Vec, d: real)
    requires IsDistance(a, b, d)
    ensures d == 0.0 <==> a == b
  {
    SquareZero(d);
  }

  /** The relation is a function: two points have at most one distance. */
  lemma DistanceUnique(a: Vec, b: Vec, d1: real, d2: real)
    requires IsDistance(a, b, d1) && IsDistance(a, b, d2)
    ensures d1 == d2
  {
    SquareMonotone(d1, d2);
    SquareMonotone(d2, d1);
  }
}

=== FILE: player.dfy ===
/**
 * Player (entities.py:154-228): the sonar ping counter, the trail list and
 * the exploded (game-over) branch of Player.update.
 */
module Players {
  import opened Geometry
  import opened Entities
  import opened Collection
  import opened Base
  import opened Submarine

  function Aged(t: Trail, dt: real): Trail
  {
    t.(age := t.age + dt)
  }

  /** The trail loop of Player.update (entities.py:193-198): age every trail, keep the young ones in order. */
  function Retain(ts: seq<Trail>, dt: real): (r: seq<Trail>)
    ensures |r| <= |ts|
    ensures forall j :: 0 <= j < |r| ==> r[j].age < TrailMaxAge
  {
    if |ts| == 0 then []
    else
      var t := Aged(ts[0], dt);
      (if t.age < TrailMaxAge then [t] else []) + Retain(ts[1..], dt)
  }

  /** Retain works trail by trail, so it keeps the relative order of the survivors. */
  lemma {:induction false} RetainConcat(a: seq<Trail>, b: seq<Trail>, dt: real)
    ensures Retain(a + b, dt) == Retain(a, dt) + Retain(b, dt)
  {
    if |a| > 0 {
      assert (a + b)[1..] == a[1..] + b;
      RetainConcat(a[1..], b, dt);
    } else {
      assert a + b == b;
    }
  }

  /** A trail survives exactly when its aged copy is younger than 5. */
  lemma {:induction false} RetainMembers(ts: seq<Trail>, dt: real, t: Trail)
    ensures t in Retain(ts, dt) <==> exists j :: 0 <= j < |ts| && t == Aged(ts[j], dt) && t.age < TrailMaxAge
  {
    if |ts| > 0 {
      RetainMembers(ts[1..], dt, t);
      if t in Retain(ts[1..], dt) {
        var j :| 0 <= j < |ts[1..]| && t == Aged(ts[1..][j], dt) && t.age < TrailMaxAge;
        assert t == Aged(ts[j + 1], dt);
      }
      if exists j :: 0 <= j < |ts| && t == Aged(ts[j], dt) && t.age < TrailMaxAge {
        var j :| 0 <= j < |ts| && t == Aged(ts[j], dt) && t.age < TrailMaxAge;
        if j > 0 {
          assert ts[1..][j - 1] == ts[j];
        }
      }
    }
  }

  /**
   * The spawn rule (entities.py:199-204): while moving ahead, append a
   * fresh trail if there is none (the IndexError path), or if there are
   * fewer than 10 and the newest is older than 5/10.
   */
  function Spawn(ts: seq<Trail>, pos: Vec, speed: real): (r: seq<Trail>)
    ensures r == ts || r == ts + [Trail(pos, 0.0)]
    ensures r != ts <==>
              speed > 0.0 && (|ts| == 0 || (|ts| < TrailLength && ts[|ts| - 1].age > TrailMaxAge / TrailLength as real))
    ensures |ts| <= TrailLength ==> |r| <= TrailLength
  {
    if speed > 0.0 then
      if |ts| == 0 then [Trail(pos, 0.0)]
      else if |ts| < TrailLength && ts[|ts| - 1].age > TrailMaxAge / TrailLength as real then ts + [Trail(pos, 0.0)]
      else ts
    else ts
  }

  /** The sonar counter (entities.py:206-207): idle at 0, otherwise count up to 58 and fall back to 0. */
  function NextPing(p: int): (r: int)
    ensures p == 0 ==> r == 0
    ensures p != 0 && p < PingMax ==> r == p + 1
    ensures p >= PingMax ==> r == 0
    ensures 0 <= p <= PingMax ==> 0 <= r <= PingMax
  {
    if p != 0 then (if p < PingMax then p + 1 else 0) else 0
  }

  /** The counter after n updates. */
  function PingAfter(p: int, n: nat): int
    decreases n
  {
    if n == 0 then p else PingAfter(NextPing(p), n - 1)
  }

  /**
   * A pulse started at phase p (SPACE sets 1) counts up one per update to
   * 58 and is idle again on the update after that: 58 updates of growing
   * radius from a fresh ping.
   */
  lemma {:induction false} PulseLength(p: int, n: nat)
    requires 1 <= p <= PingMax
    ensures n <= PingMax - p ==> PingAfter(p, n) == p + n
    ensures n > PingMax - p ==> PingAfter(p, n) == 0
    decreases n
  {
    if n > 0 {
      if p < PingMax {
        PulseLength(p + 1, n - 1);
      } else {
        IdleStaysIdle(n - 1);
      }
    }
  }

  lemma {:induction false} IdleStaysIdle(n: nat)
    ensures PingAfter(0, n) == 0
  {
    if n > 0 {
      IdleStaysIdle(n - 1);
    }
  }

  /** Every entity in the list marked pinged, nothing else touched (entities.py:212-213). */
  function PingAll(es: seq<Entity>): (r: seq<Entity>)
    ensures |r| == |es|
    ensures forall j :: 0 <= j < |r| ==> r[j] == es[j].(body := es[j].body.(pinged := true))
  {
    seq(|es|, j requires 0 <= j < |es| => es[j].(body := es[j].body.(pinged := true)))
  }

  /** Player.update closes the window once the explosion clock passes 3 (entities.py:210-211). */
  predicate ClosesWindow(p: Entity)
  {
    p.kind.Player? && p.body.exploded && p.kind.explosionTime > GameOverDelay
  }

  /**
   * Player.update (entities.py:186-213).  Alive: Sub.update, then the
   * trails, then the sonar counter.  Exploded: no movement, the explosion
   * clock runs, and every listed entity (the player included) is marked
   * pinged.
   */
  function PlayerUpdate(me: Entity, w: World, dt: real, env: Env): (r: Frame)
    requires me.kind.Player?
    ensures r.me.kind.Player? && r.me.body.id == me.body.id
    ensures !me.body.exploded ==> r.me.kind.pingTime == NextPing(me.kind.pingTime)
    ensures !me.body.exploded ==>
              && r.me.kind.trails == Spawn(Retain(me.kind.trails, dt), r.me.body.pos, r.me.body.speed)
              && r.me.body == SubUpdate(me, w, dt, env).me.body
              && r.me.kind.helm == SubUpdate(me, w, dt, env).me.kind.helm
              && r.w == SubUpdate(me, w, dt, env).w
              && r.me.kind.explosionTime == EntityUpdate(me, w, dt, env).me.kind.explosionTime
    ensures !me.body.exploded ==> forall j :: 0 <= j < |r.me.kind.trails| ==> r.me.kind.trails[j].age < TrailMaxAge
    ensures |me.kind.trails| <= TrailLength ==> |r.me.kind.trails| <= TrailLength
    ensures me.body.exploded ==>
              && r.me.body.pos == me.body.pos && r.me.body.heading == me.body.heading
              && r.me.kind.explosionTime == me.kind.explosionTime + dt
              && r.me.kind.pingTime == me.kind.pingTime && r.me.kind.trails == me.kind.trails
              && r.w == w.(es := PingAll(w.es))
              && (Has(w.es, me.body.id) ==> r.me.body.pinged)
              && r.me.body == me.body.(pinged := r.me.body.pinged)
              && r.me.kind.helm == me.kind.helm
  {
    if !me.body.exploded then
      var f := SubUpdate(me, w, dt, env);
      var m := f.me;
      var trails := Spawn(Retain(m.kind.trails, dt), m.body.pos, m.body.speed);
      Frame(m.(kind := m.kind.(trails := trails, pingTime := NextPing(m.kind.pingTime))), f.w)
    else
      var b := me.body.(pinged := me.body.pinged || Has(w.es, me.body.id));
      Frame(Entity(b, me.kind.(explosionTime := me.kind.explosionTime + dt)), w.(es := PingAll(w.es)))
  }

  /** Once the window is due to close it stays due: an exploded player's clock only grows. */
  lemma GameOverSticks(me: Entity, w: World, dt: real, env: Env)
    requires ClosesWindow(me) && dt >= 0.0
    ensures ClosesWindow(PlayerUpdate(me, w, dt, env).me)
  {
  }

  /**
   * A player that blows up inside its own alive update still steps its
   * sonar counter in that update, so the frozen ping_time of the game-over
   * branch is the stepped one: 1 freezes as 2, 58 as 0.
   */
  lemma ExplodingUpdateStepsPing(me: Entity, w: World, dt: real, env: Env, j: nat)
    requires me.kind.Player? && !me.body.exploded
    requires j < |w.es| && Qualifies(me.(body := Drift(me.body, dt, env.bearing)), w.es[j])
    ensures var r := PlayerUpdate(me, w, dt, env).me;
            && r.body.exploded
            && r.kind.pingTime == NextPing(me.kind.pingTime)
            && (me.kind.pingTime == 1 ==> r.kind.pingTime == 2)
            && (me.kind.pingTime == PingMax ==> r.kind.pingTime == 0)
  {
    EntityUpdateDetonates(me, w, dt, env);
  }

  /** Player.update keeps the world well formed and the player's own invariants. */
  lemma PlayerUpdateSettles(w: World, me: Entity, dt: real, env: Env)
    requires WF(w) && Agrees(w, me) && PlayerOk(me)
    ensures Settles(w, me, PlayerUpdate(me, w, dt, env))
    ensures PlayerOk(PlayerUpdate(me, w, dt, env).me)
  {
    if !me.body.exploded {
      SubUpdateSettles(w, me, dt, env);
    } else {
      var es := PingAll(w.es);
      assert forall j :: 0 <= j < |es| ==> es[j].body.id == w.es[j].body.id && es[j].kind == w.es[j].kind;
      IndexOfByIds(es, w.es, me.body.id);
    }
  }
}

=== FILE: submarine.dfy ===
/** What Sub adds to Entity (entities.py:54-84): turning with wrap-around, torpedo cooldown, firing. */
module Submarine {
  import opened Entities
  import opened Collection
  import opened Base

  /**
   * Sub.update's heading change (entities.py:63-68): add the turn, then
   * take 360 off above 360 or put 360 on below 1.
   */
  function Turn(heading: real, change: int): (r: real)
    ensures heading + change as real > 360.0 ==> r == heading + change as real - 360.0
    ensures heading + change as real < 1.0 ==> r == heading + change as real + 360.0
    ensures 1.0 <= heading + change as real <= 360.0 ==> r == heading + change as real
  {
    if heading + change as real > 360.0 then heading + change as real - 360.0
    else if heading + change as real < 1.0 then heading + change as real + 360.0
    else heading + change as real
  }

  /** For whole-degree headings the compass range 1..360 is kept, shifted by exactly one turn when it wraps. */
  lemma TurnKeepsWholeCompass(heading: int, change: int)
    requires 1 <= heading <= 360 && -TurnRate <= change <= TurnRate
    ensures var r := Turn(heading as real, change);
            && 1.0 <= r <= 360.0
            && r == (heading + change + (if heading + change > 360 then -360 else if heading + change < 1 then 360 else 0)) as real
  {
  }

  /**
   * For fractional headings 1..360 is not kept (see TurnLeavesCompass), but
   * the band (0, 361) is, for every turn of at most 5 degrees.
   */
  lemma TurnKeepsBand(heading: real, change: int)
    requires 0.0 < heading < 361.0 && -TurnRate <= change <= TurnRate
    ensures 0.0 < Turn(heading, change) < 361.0
  {
  }

  /** A heading below 1 with no turn lands above 360: the floor test is "< 1", not "<= 0". */
  lemma TurnLeavesCompass()
    ensures Turn(0.5, 0) == 360.5
  {
  }

  /** Sub.update's cooldown step (entities.py:71-74). */
  function Cool(t: real, dt: real): (r: real)
    ensures t > 0.0 ==> r == t - dt
    ensures t < 0.0 ==> r == 0.0
    ensures t == 0.0 ==> r == 0.0
  {
    if t > 0.0 then t - dt else if t < 0.0 then 0.0 else t
  }

  /**
   * With time steps of at most `step`, the cooldown stays within
   * [-step, 5]: it can overshoot below zero by less than one step, and the
   * next update puts it back to exactly 0.
   */
  lemma CoolKeepsBand(t: real, dt: real, step: real)
    requires 0.0 <= dt <= step && -step <= t <= Reload
    ensures -step <= Cool(t, dt) <= Reload
    ensures t <= 0.0 ==> Cool(t, dt) == 0.0
  {
  }

  /**
   * Sub.fire_torpedo (entities.py:81-84): only when the cooldown is exactly
   * 0, restart it at 5 and append one torpedo at the same place, 40 faster,
   * on the same heading.
   */
  function FireTorpedo(me: Entity, w: World): (r: Frame)
    requires IsSub(me)
    ensures me.kind.helm.torpedoTime != 0.0 ==> r == Frame(me, w)
    ensures me.kind.helm.torpedoTime == 0.0 ==>
              && r.me == me.(kind := WithHelm(me.kind, me.kind.helm.(torpedoTime := Reload)))
              && r.w == World(w.es + [NewTorpedo(w.nextId, me.body.pos, me.body.speed + LaunchBoost, me.body.heading)], w.nextId + 1)
  {
    if me.kind.helm.torpedoTime == 0.0 then
      var torpedo := NewTorpedo(w.nextId, me.body.pos, me.body.speed + LaunchBoost, me.body.heading);
      Frame(me.(kind := WithHelm(me.kind, me.kind.helm.(torpedoTime := Reload))), World(w.es + [torpedo], w.nextId + 1))
    else Frame(me, w)
  }

  /** Firing twice in a row launches one torpedo: the first launch blocks the second. */
  lemma FireTwiceLaunchesOnce(me: Entity, w: World)
    requires IsSub(me) && me.kind.helm.torpedoTime == 0.0
    ensures var f := FireTorpedo(me, w);
            var g := FireTorpedo(f.me, f.w);
            && g == f
            && |g.w.es| == |w.es| + 1
            && g.w.es[|w.es|].kind.Torpedo?
  {
  }

  /** Sub.update: Entity.update, then turn, then cool down. */
  function SubUpdate(me: Entity, w: World, dt: real, env: Env): (r: Frame)
    requires IsSub(me)
    ensures IsSub(r.me) && SameKind(r.me, me) && r.me.body.id == me.body.id
    ensures r.me.body.heading == Turn(me.body.heading, me.kind.helm.changeAngle)
    ensures r.me.kind.helm == Helm(Cool(me.kind.helm.torpedoTime, dt), me.kind.helm.changeAngle)
    ensures me.kind.Player? ==>
              && r.me.kind.trails == me.kind.trails && r.me.kind.pingTime == me.kind.pingTime
              && r.me.kind.explosionTime == EntityUpdate(me, w, dt, env).me.kind.explosionTime
    ensures me.kind.Enemy? ==> WithHelm(r.me.kind, me.kind.helm) == me.kind
    ensures r.me.body.pinged == me.body.pinged
    ensures r.me.body == EntityUpdate(me, w, dt, env).me.body.(heading := r.me.body.heading)
    ensures r.w == EntityUpdate(me, w, dt, env).w
  {
    var f := EntityUpdate(me, w, dt, env);
    var m := f.me;
    var helm := m.kind.helm;
    Frame(m.(body := m.body.(heading := Turn(m.body.heading, helm.changeAngle)),
             kind := WithHelm(m.kind, helm.(torpedoTime := Cool(helm.torpedoTime, dt)))),
          f.w)
  }

  /** Sub.update keeps the world well formed. */
  lemma SubUpdateSettles(w: World, me: Entity, dt: real, env: Env)
    requires WF(w) && Agrees(w, me) && IsSub(me)
    ensures Settles(w, me, SubUpdate(me, w, dt, env))
  {
    EntityUpdateSettles(w, me, dt, env);
  }
}

=== FILE: transients.dfy ===
/** Torpedo.update and Explosion.update (entities.py:249-276): fuse arming and expiry. */
module Transients {
  import opened Wrappers
  import opened Geometry
  import opened Entities
  import opened Collection
  import opened Base

  /**
   * `entities.remove(self)` at the end of a lifetime.  Unlike the removals
   * inside a detonation it is not wrapped in try/except, so when a
   * detonation in the same update already removed the object the
   * ValueError escapes.
   */
  function Expire(me: Entity, w: World): (r: Result<Frame, Fault>)
    ensures Has(w.es, me.body.id) <==> r.Success?
    ensures r.Success? ==> r.value.me == me && r.value.w == w.(es := Remove(w.es, me.body.id))
    ensures r.Failure? ==> r.error == NotListed(me.body.id)
  {
    if Has(w.es, me.body.id) then Success(Frame(me, w.(es := Remove(w.es, me.body.id))))
    else Failure(NotListed(me.body.id))
  }

  /**
   * Torpedo.update (entities.py:249-257): Entity.update, then age; arm once
   * older than the fuse length; leave the list once older than the
   * lifetime.
   */
  function TorpedoUpdate(me: Entity, w: World, dt: real, env: Env): (r: Result<Frame, Fault>)
    requires me.kind.Torpedo?
    ensures r.Success? ==> r.value.me.kind.Torpedo? && r.value.me.body.id == me.body.id
    ensures r.Success? ==> r.value.me.kind.age == me.kind.age + dt
    ensures r.Success? ==> r.value.me.body.explosive == (me.body.explosive || me.kind.age + dt > me.kind.fuseLength)
    ensures r.Success? ==> r.value.me.body.pinged == me.body.pinged
    ensures r.Success? ==> r.value.me.body == EntityUpdate(me, w, dt, env).me.body.(explosive := r.value.me.body.explosive)
    ensures r.Success? ==> r.value.me.kind == me.kind.(age := r.value.me.kind.age)
    ensures me.kind.age + dt <= me.kind.lifetime ==> r.Success? && r.value.w == EntityUpdate(me, w, dt, env).w
    ensures me.kind.age + dt > me.kind.lifetime ==>
              (r.Success? <==> Has(EntityUpdate(me, w, dt, env).w.es, me.body.id))
    ensures me.kind.age + dt > me.kind.lifetime && UniqueIds(EntityUpdate(me, w, dt, env).w.es) && r.Success? ==>
              !Has(r.value.w.es, me.body.id)
    ensures me.kind.age + dt > me.kind.lifetime && r.Success? ==>
              r.value.w == EntityUpdate(me, w, dt, env).w.(es := Remove(EntityUpdate(me, w, dt, env).w.es, me.body.id))
  {
    var f := EntityUpdate(me, w, dt, env);
    var m := f.me;
    var age := m.kind.age + dt;
    var armed := m.body.explosive || age > m.kind.fuseLength;
    var m' := Entity(m.body.(explosive := armed), WithAge(m.kind, age));
    RemoveDropsId(f.w.es, me.body.id);
    if age > m.kind.lifetime then Expire(m', f.w) else Success(Frame(m', f.w))
  }

  /**
   * The fuse invariant "armed exactly when older than the fuse" holds for a
   * fresh torpedo (age 0, fuse 1) and every update with dt >= 0 keeps it:
   * a torpedo is not explosive up to age 1, explosive after, never disarmed.
   */
  lemma FuseInvariant(me: Entity, w: World, dt: real, env: Env)
    requires me.kind.Torpedo? && dt >= 0.0
    requires me.body.explosive <==> me.kind.age > me.kind.fuseLength
    ensures var r := TorpedoUpdate(me, w, dt, env);
            r.Success? ==> (r.value.me.body.explosive <==> r.value.me.kind.age > r.value.me.kind.fuseLength)
  {
  }

  /** A freshly launched torpedo satisfies the fuse invariant. */
  lemma FreshTorpedoUnarmed(id: nat, pos: Vec, speed: real, heading: real)
    ensures var t := NewTorpedo(id, pos, speed, heading);
            !t.body.explosive && (t.body.explosive <==> t.kind.age > t.kind.fuseLength)
  {
  }

  /**
   * A torpedo that detonates on the very update in which it outlives its
   * lifetime takes the game down: its detonation already removed it, and
   * the unguarded second removal raises.
   */
  lemma TorpedoDetonatingAtExpiryFaults(me: Entity, w: World, dt: real, env: Env, j: nat)
    requires me.kind.Torpedo? && WF(w) && Has(w.es, me.body.id)
    requires me.kind.age + dt > me.kind.lifetime
    requires j < |w.es| && Qualifies(me.(body := Drift(me.body, dt, env.bearing)), w.es[j])
    ensures TorpedoUpdate(me, w, dt, env) == Failure(NotListed(me.body.id))
  {
    var d := me.(body := Drift(me.body, dt, env.bearing));
    var k := FirstPartner(d, w.es).value;
    assert Scan(d, w) == Detonate(d, w, k);
    var f := Detonate(d, w, k);
    var boom := NewExplosion(w.nextId, d.body.pos);
    assert f.w.es == f.w.es[..|f.w.es| - 1] + [boom];
    var i := IndexOf(w.es, me.body.id).value;
    assert me.body.id < w.nextId by { assert w.es[i].body.id < w.nextId; }
    NotListedAfterAppend(f.w.es[..|f.w.es| - 1], boom, me.body.id);
  }

  lemma NotListedAfterAppend(es: seq<Entity>, e: Entity, id: nat)
    requires !Has(es, id) && e.body.id != id
    ensures !Has(es + [e], id)
  {
    var r := es + [e];
    assert forall j :: 0 <= j < |es| ==> r[j] == es[j];
  }

  /**
   * Explosion.update (entities.py:271-276): Entity.update (an explosion is
   * explosive and can itself detonate what comes near), then leave the
   * list if already older than 3, else age.
   */
  function ExplosionUpdate(me: Entity, w: World, dt: real, env: Env): (r: Result<Frame, Fault>)
    requires me.kind.Explosion?
    ensures r.Success? ==> r.value.me.kind.Explosion? && r.value.me.body.id == me.body.id
    ensures r.Success? ==> r.value.me.body.pinged == me.body.pinged
    ensures r.Success? ==> r.value.me.body == EntityUpdate(me, w, dt, env).me.body
    ensures r.Success? ==> r.value.me.kind == me.kind.(age := r.value.me.kind.age)
    ensures me.kind.age <= ExplosionLife ==>
              r.Success? && r.value.me.kind.age == me.kind.age + dt && r.value.w == EntityUpdate(me, w, dt, env).w
    ensures me.kind.age > ExplosionLife ==>
              && (r.Success? <==> Has(EntityUpdate(me, w, dt, env).w.es, me.body.id))
              && (r.Success? ==> r.value.me.kind.age == me.kind.age)
    ensures me.body.speed == 0.0 && me.body.thrust == 0 && r.Success? ==> r.value.me.body.pos == me.body.pos
  {
    var f := EntityUpdate(me, w, dt, env);
    if f.me.kind.age > ExplosionLife then Expire(f.me, f.w)
    else Success(Frame(Entity(f.me.body, WithAge(f.me.kind, f.me.kind.age + dt)), f.w))
  }

  /**
   * An explosion already older than 3 leaves the list on this update: the
   * list becomes what Entity.update left, without the explosion, and it is
   * no longer listed there.
   */
  lemma ExplosionExpires(me: Entity, w: World, dt: real, env: Env)
    requires me.kind.Explosion? && me.kind.age > ExplosionLife
    ensures var f := EntityUpdate(me, w, dt, env);
            var r := ExplosionUpdate(me, w, dt, env);
            && (r.Success? ==> r.value.w == f.w.(es := Remove(f.w.es, me.body.id)))
            && (UniqueIds(f.w.es) && r.Success? ==> !Has(r.value.w.es, me.body.id))
  {
    RemoveDropsId(EntityUpdate(me, w, dt, env).w.es, me.body.id);
  }

  /**
   * The same crash for an explosion: it is explosive itself, so one that
   * catches another object on its final update is removed by the
   * detonation and then removed again.
   */
  lemma ExplosionDetonatingAtExpiryFaults(me: Entity, w: World, dt: real, env: Env, j: nat)
    requires me.kind.Explosion? && WF(w) && Has(w.es, me.body.id)
    requires me.kind.age > ExplosionLife
    requires j < |w.es| && Qualifies(me.(body := Drift(me.body, dt, env.bearing)), w.es[j])
    ensures ExplosionUpdate(me, w, dt, env) == Failure(NotListed(me.body.id))
  {
    var d := me.(body := Drift(me.body, dt, env.bearing));
    var k := FirstPartner(d, w.es).value;
    assert Scan(d, w) == Detonate(d, w, k);
    var f := Detonate(d, w, k);
    var boom := NewExplosion(w.nextId, d.body.pos);
    assert f.w.es == f.w.es[..|f.w.es| - 1] + [boom];
    var i := IndexOf(w.es, me.body.id).value;
    assert me.body.id < w.nextId by { assert w.es[i].body.id < w.nextId; }
    NotListedAfterAppend(f.w.es[..|f.w.es| - 1], boom, me.body.id);
  }

  /** Torpedo.update keeps the world well formed. */
  lemma TorpedoUpdateSettles(w: World, me: Entity, dt: real, env: Env)
    requires WF(w) && Agrees(w, me) && me.kind.Torpedo?
    ensures var r := TorpedoUpdate(me, w, dt, env);
            r.Success? ==> Settles(w, me, r.value)
  {
    EntityUpdateSettles(w, me, dt, env);
    var f := EntityUpdate(me, w, dt, env);
    if Has(f.w.es, me.body.id) {
      RemoveKeepsWF(f.w, me.body.id);
    }
  }

  /** Explosion.update keeps the world well formed. */
  lemma ExplosionUpdateSettles(w: World, me: Entity, dt: real, env: Env)
    requires WF(w) && Agrees(w, me) && me.kind.Explosion?
    ensures var r := ExplosionUpdate(me, w, dt, env);
            r.Success? ==> Settles(w, me, r.value)
  {
    EntityUpdateSettles(w, me, dt, env);
    var f := EntityUpdate(me, w, dt, env);
    if Has(f.w.es, me.body.id) {
      RemoveKeepsWF(f.w, me.body.id);
    }
  }
}

=== FILE: wrappers.dfy ===
/** Optional values and results with an error, used for the source's None returns and exceptions. */
module Wrappers {

  datatype Option<+T> = None | Some(value: T)

  datatype Result<+T, +E> = Success(value: T) | Failure(error: E)
}
